=== FILE: README.md ===
# rock3d.cpp core, modelled in Dafny

This project models the small, self-contained pieces of logic in the rock3d
engine and proves what they promise. Each piece is a Dafny module:

- **Bits** (`rock3d/bit.h`, `rock3d/util.h`) defines the 64-bit left rotation `Rotl`.
  It proves that `Rotl` moves every bit by `k` places, that rotating back by
  `64 - k` restores the word, and that zero stays zero.
- **Xoshiro** (`rock3d/random.h`) models the xoshiro256++ generator on `bv64`.
  - SplitMix64 seeding from two 32-bit seeds.
  - The `++` output scrambler and the xor/shift/rotate state transition.
  - The `min()`/`max()` range.
  - Seeding is injective.
  - The all-zero state stays zero, and no other state advances to zero.
  - Known-answer values for SplitMix64 and xoshiro256++.
- **Random** (`rock3d/random.cpp`) models `U32`, `U64` and the rejection
  sampling of `UniformU32` and `UniformU64`.
  - The threshold `(0 - bound) % bound` is `2^n mod bound`.
  - Draws are accepted exactly when they are at or above the threshold.
  - The first accepted draw, reduced modulo the bound, is the result.
  - As in the code, both uniform functions draw from the global generator
    `g_cRandom`, not from the generator they are passed.
- **Events** (`include/rock3d/event.h`) holds the scan codes and key codes.
  - `ScanToKey` tags a scan code with bit 30.
  - The tag is injective and is undone by clearing bit 30.
  - Every scan code is below `KSCAN_MAX`.
  - Scan-derived keys never collide with character keys.
- **EventQueue** (`rock3d/event.cpp`) models the 1024-slot ring buffer as a
  value. `Contents` reads it as the sequence of stored events.
  - `Queue` appends, and drops the oldest event when the ring is full.
  - `Poll` removes the oldest event.
  - The two together behave as a first-in first-out queue.
- **Assets** (`rock3d/assets.cpp`) models the parent-directory guard
  `ContainsParentDir`, `AddPath` and `ReadToBuffer`.
  - The platform file read is a function parameter.
  - A refused path never reaches the read.
  - Otherwise the first location in `AddPath` order whose read succeeds
    wins.
- **Json** and **Level** (`src/level.cpp`, record shapes from
  `include/rock3d/level.h`).
  - Json models the part of jsoncpp's `Json::Value` that the loader uses.
  - Level models the loader: edges, polygons, locations, `UnserializeLevel`
    and `LoadLevelAsset`.
  - Edge indices are handed out contiguously across polygons.
  - An edge without a back polygon gets the `UINT64_MAX` sentinel.
  - A failed read and a failed parse give two distinct errors.
  - The asset read and the JSON parser are parameters.
- **Textures** (`rock3d/r3d/textures.cpp`) models the texture registry and
  the atlas coordinate assignment of `BakeAtlas`.
  - Registration is append-only: ids equal the previous count, and the
    newest registration of a name wins.
  - Lookups are bounds-checked.
  - The image decoder and the rectangle packer are parameters.
- **Render** (`rock3d/r3d/render.cpp`) models `RenderContext::AddWall`.
  - Its failure paths append nothing.
  - On success it appends four vertices in a fixed corner order.
  - All four vertices share the atlas info.
  - Texture coordinates are measured in texels.
  - Brightness is clamped into [0, 1].
  - The wall length and the "fake contrast" term are uninterpreted
    functions.
- **Engine** (`rock3d/engine.cpp`, `src/engine.cpp`) models one pass of the
  fixed-timestep loop of `Tick` as a pure step.
  - It clamps the frame time, drains whole deltas as ticks on `uint64_t`
    counters and hands the remainder to `Render`.
  - Over any number of passes, the frame counts run 0, 1, 2, …, and game
    time is the frame count times the delta.
  - The clamped frame times add up to game time plus the leftover.
  - The drain loop is written as a method with loop invariants, and is
    proved equal to its recursive reading.

Where the code has a defect, the model has two members:

- one that follows the code as written, with a lemma that exhibits the
  defect;
- a corrected one, with the intended property proved about it, which the
  rest of the model uses (see Findings).

## Model

| member | source | states |
|---|---|---|
| Bits.RotlBit | rock3d/bit.h:11-14 | for 0 < k < 64, bit i of `Rotl(x, k)` is bit (i - k) mod 64 of x: the shift pair is a rotation; the identical `Rotl` of rock3d/util.h lines 11-14 is the same function |
| Bits.RotlInverse | rock3d/bit.h:11-14 | for 0 < k < 64, rotating by k and then by 64 - k gives back the original word (for both copies of `Rotl`) |
| Bits.RotlZero | rock3d/bit.h:11-14 | rotating the zero word gives zero |
| Xoshiro.SplitMix64OfZero | rock3d/random.h:23-29 | SplitMix64 with wrap-around arithmetic maps 0 to the published first SplitMix64 output 0xe220a8397b1dcdaf |
| Xoshiro.Pack | rock3d/random.h:36 | the low 32 bits of the packed word are seed0 and the high 32 bits are seed1 |
| Xoshiro.PackInjective | rock3d/random.h:36 | two seed pairs pack to the same word exactly when they are equal |
| Xoshiro.Seed | rock3d/random.h:34-40 | word 0 holds seed0 low and seed1 high; words 1, 2 and 3 are successive SplitMix64 images of the previous word |
| Xoshiro.SeedInjective | rock3d/random.h:34-40 | different seed pairs give different generator states |
| Xoshiro.SeedKnownAnswer | rock3d/random.h:34-40 | seeds (1, 2) give the state the reference SplitMix64 gives |
| Xoshiro.GenerateKnownAnswer | rock3d/random.h:42-58 | from that state, the first two outputs and the successor state are the reference xoshiro256++ values, so the output uses the pre-update state |
| Xoshiro.ZeroStateIsStuck | rock3d/random.h:42-58 | the all-zero state outputs 0 and stays all-zero, which is why the seed must not be all zero |
| Xoshiro.AdvanceToZero | rock3d/random.h:46-55 | only the all-zero state advances to the all-zero state |
| Xoshiro.NonZeroStaysNonZero | rock3d/random.h:42-58 | a non-zero state never reaches the all-zero state |
| Xoshiro.ZeroIffSuccessorZero | rock3d/random.h:42-58 | a state is all-zero exactly when its successor is |
| Xoshiro.OutputInRange | rock3d/random.h:60-68 | min() is 0 and max() is 2^64 - 1, the whole of `uint64_t`, so every output is in range by its type |
| Random.U32 | rock3d/random.cpp:46-49 | the value is below 2^32 and congruent to the 64-bit output modulo 2^32, so it is its low 32 bits; the generator advances once |
| Random.U64 | rock3d/random.cpp:96-99 | the value is the whole 64-bit output and the generator advances once |
| Random.Threshold | rock3d/random.cpp:74 | `(0 - bound) % bound` with the subtraction wrapping modulo 2^n equals 2^n mod bound; it is below the bound, and the accepted range [threshold, 2^n) has a length divisible by the bound |
| Random.Sample | rock3d/random.cpp:76-84 | a value the retry loop returns is below the bound, and it takes between 1 and fuel draws, leaving the generator that many calls on |
| Random.SampleAcceptsFirst | rock3d/random.cpp:77-84 | the accepted draw is at or above the threshold, every earlier draw is below it, and the result is the accepted draw reduced modulo the bound |
| Random.SampleOutOfFuel | rock3d/random.cpp:77-84 | the loop fails to return within its fuel exactly when every draw it may make is below the threshold |
| Random.SampleFuelMonotone | rock3d/random.cpp:77-84 | once a draw is accepted, more fuel gives the same outcome |
| Random.Uniform | rock3d/random.cpp:60-85 | bounds 0 and 1 give 0 without drawing; otherwise the outcome is the first draw at or above 2^n mod bound, reduced modulo the bound, and is below the bound |
| Random.UniformU32 | rock3d/random.cpp:60-85 | bounds below 2 give 0 without drawing; otherwise the first 64-bit draw whose low 32 bits reach 2^32 mod bound decides the result, which is below the bound; draws come from the global generator |
| Random.UniformU64 | rock3d/random.cpp:110-135 | bounds below 2 give 0; otherwise the first draw at or above 2^64 mod bound decides the result, which is below the bound |
| Events.ScanBelowMax | include/rock3d/event.h:22-146 | every listed scan code is below `KSCAN_MAX` = 512 |
| Events.ScanToKey | include/rock3d/event.h:150-154 | the key has bit 30 set and agrees with the scan code on every other bit |
| Events.ScanToKeyRoundTrip | include/rock3d/event.h:150-154 | for scan codes below 2^30, clearing bit 30 recovers the scan code |
| Events.ScanToKeyInjective | include/rock3d/event.h:150-154 | for scan codes below 2^30, two scan codes give the same key exactly when they are equal |
| Events.CharKeyBelow128 | include/rock3d/event.h:157-229 | every character-valued key is below 128 |
| Events.ScanKeyNotCharKey | include/rock3d/event.h:157-296 | a scan-derived key is at least 2^30 and never equals a character key |
| Events.ScanKeyIsKey | include/rock3d/event.h:233-296 | a tagged scan code is a key value exactly when the scan code has a key of its own, and the key recovers its scan code |
| Events.ScanKeyKnownValues | include/rock3d/event.h:233-296 | the first and last scan-derived keys, `KKEY_CAPSLOCK` and `KKEY_RGUI`, are 0x40000039 and 0x400000E7 |
| EventQueue.Next | rock3d/event.cpp:26-29 | the next index is one more, except that the last slot wraps to 0, so head and tail stay in [0, 1024) |
| EventQueue.Empty | rock3d/event.cpp:22-24 | a new queue is valid and holds no event |
| EventQueue.Count | rock3d/event.cpp:22-24 | the number of stored events is below 1024, is 0 exactly when head equals tail, and leads from head to tail around the ring |
| EventQueue.Queue | rock3d/event.cpp:32-41 | below 1023 stored events the new event is appended at the back; at 1023 the oldest is dropped and the new one appended |
| EventQueue.QueueNotFull | rock3d/event.cpp:39-40 | on a non-full ring the stored sequence grows by exactly the new event |
| EventQueue.QueueFull | rock3d/event.cpp:34-40 | on a full ring the stored sequence loses its first event and gains the new one, staying at 1023 |
| EventQueue.Poll | rock3d/event.cpp:43-53 | on an empty queue there is no event and nothing changes; otherwise the oldest event is returned and exactly it is removed |
| EventQueue.PollContents | rock3d/event.cpp:50-52 | moving the head on from a non-empty ring drops exactly the first stored event |
| EventQueue.QueueThenPollEmpty | rock3d/event.cpp:32-53 | queueing into an empty queue and then polling returns the same event and leaves the queue empty |
| EventQueue.PollAfterQueue | rock3d/event.cpp:32-53 | queueing without overflow does not change which event is polled next, and the new event stays at the back |
| EventQueue.EngineEventsInOrder | rock3d/event.cpp:22-53 | on a queue of engine events, a key event and then a mouse motion are polled in that order, and the queue is empty afterwards |
| Assets.Find | rock3d/assets.cpp:19 | `find` answers the first index at or after the start where the pattern occurs, or `npos` when there is none |
| Assets.FindIffContains | rock3d/assets.cpp:19-28 | `find` succeeds exactly when the pattern occurs somewhere |
| Assets.ContainsParentDir | rock3d/assets.cpp:17-36 | a path is flagged exactly when it contains "../" or "..\\" or has at least two characters and ends in ".." |
| Assets.ShortPathsPass | rock3d/assets.cpp:29-35 | paths of length 0 or 1 are never flagged |
| Assets.DotDotIsFlagged | rock3d/assets.cpp:29-34 | the path ".." itself is flagged |
| Assets.SlashClimbIsFlagged | rock3d/assets.cpp:19-23 | a path with "../" in the middle is flagged |
| Assets.BackslashClimbIsFlagged | rock3d/assets.cpp:24-28 | a path with "..\\" in the middle is flagged |
| Assets.AddPath | rock3d/assets.cpp:47-50 | the new location goes at the end and the earlier ones keep their order |
| Assets.FirstHit | rock3d/assets.cpp:58-66 | the chosen location is the first one, from the start index on, whose read succeeds; with none, every read failed |
| Assets.ReadToBuffer | rock3d/assets.cpp:52-68 | a flagged path gives `invalid_path` and nothing else does; `not_found` comes exactly when every location fails or there are none; otherwise the data is that of the first location whose read succeeds |
| Assets.AddPathKeepsEarlierReads | rock3d/assets.cpp:47-67 | adding a location never changes a successful read, and a read that found nothing now reads the new location |
| Assets.FirstHitPrefix | rock3d/assets.cpp:58-66 | searching a list with one more location gives the old answer, or the new location when the old list had no hit |
| Level.UnserializeEdge | src/level.cpp:21-28 | an edge without "backPoly" gets the sentinel `UINT64_MAX`; with it, the given unsigned value |
| Level.EdgeRoundTrip | src/level.cpp:13-30 | every edge is read back from the JSON written for it, the sentinel included |
| Level.Channel | src/level.cpp:45-47 | a brightness channel times 256 is the JSON unsigned integer it was read from; a missing channel reads as 0; every channel lies in [0, 2^32 / 256) |
| Level.ChannelKnownValues | src/level.cpp:45-47 | 128 reads as 0.5 and 256 as 1.0 |
| Level.PolygonFields | src/level.cpp:41-47 | the fields read besides the edges leave the edge list empty |
| Level.AppendEdges | src/level.cpp:35-40 | each edge is appended to the level's edge list in JSON order, and the polygon records the list length before each append: the next consecutive indices |
| Level.ReadPolygon | src/level.cpp:32-49 | a polygon's edges go on the end of the edge list and its index list is the range of their new positions |
| Level.UnserializePolygon | src/level.cpp:32-49 | the old edges are kept, the polygon's JSON edges are appended in order, and the polygon records exactly their indices |
| Level.AppendPolygons | src/level.cpp:72-75 | one polygon per JSON polygon, after those already read, and the edge list gets each polygon's edges in turn |
| Level.AppendPolygonsInOrder | src/level.cpp:72-75 | polygon k is read from JSON polygon k and has one index per JSON edge |
| Level.AppendPolygonsContiguous | src/level.cpp:72-75 | the polygons' index lists, one after another, count 0, 1, … up to the number of edges without gap or repeat |
| Level.UnserializeLocation | src/level.cpp:50-66 | string members and an in-range unsigned polygon are taken as given; each position and rotation coordinate is its JSON number, integer or real, as a real; a missing member reads as "", 0 or the zero vector, as jsoncpp converts null (its partner is Level.LocationRoundTrip) |
| Level.LocationRoundTrip | src/level.cpp:50-66 | every location's type, entity config, polygon, position and Euler angles are read back from its JSON |
| Level.UnserializeLevel | src/level.cpp:69-81 | the polygon count and order follow the "polygons" array; the edge list is all polygons' edges in turn; the index lists cover it contiguously from 0; the location count and order follow the "locations" array |
| Level.LoadLevelAsset | src/level.cpp:83-101 | a failed read gives `missing_asset` and is the only way to get it; a failed parse of the data read gives `json_parse_error`; otherwise the result is `UnserializeLevel` of the parsed root |
| Level.EscapingPathIsMissing | src/level.cpp:85-89 | a path the asset guard refuses yields `missing_asset` and never reaches the parser |
| Textures.EmptyIsValid | rock3d/r3d/textures.cpp:42-43 | the empty registry satisfies the registry invariant |
| Textures.AddAsset | rock3d/r3d/textures.cpp:48-70 | true exactly when the asset is read and decodes; a failed read or decode returns false and leaves the registry unchanged; on success the new entry has id = previous count and name = path, earlier entries are kept, the name maps to the new id, and the new entry holds the decoded image |
| Textures.FindByID | rock3d/r3d/textures.cpp:122-129 | null exactly when the id is not below the count; otherwise the stored entry for that id, with its size and atlas corners |
| Textures.FindByName | rock3d/r3d/textures.cpp:133-141 | null exactly when no entry has the name; otherwise the stored entry, size and atlas corners included, of the newest texture with that name |
| Textures.AddThenFind | rock3d/r3d/textures.cpp:64-68 | after a successful add the path finds the new entry even if it was added before, and every older entry is still found by its id |
| Textures.AtlasCorners | rock3d/r3d/textures.cpp:103-110 | each of the four corners times 2048 is its texel coordinate (x, y, x + w, y + h), and all lie in [0, 1] when the rectangle fits on the canvas |
| Textures.PlaceAsWritten | rock3d/r3d/textures.cpp:102 | as written, the pixel size receives the rectangle's position |
| Textures.PlaceAsWrittenLosesSize | rock3d/r3d/textures.cpp:102 | a 64 by 32 texture placed at (128, 0) gets pixel size 128 by 0 |
| Textures.Place | rock3d/r3d/textures.cpp:101-110 | corrected: the pixel size is the texture's size and the atlas span times 2048 is exactly that size |
| Textures.BakeAtlasAsWritten | rock3d/r3d/textures.cpp:74-112 | as written, no texture changes, and the only value ever returned is false |
| Textures.BakeAsWrittenPlacesNothing | rock3d/r3d/textures.cpp:83-89 | since no rectangle is ever pushed, a texture without atlas coordinates never gets any |
| Textures.BakeAsWrittenReturnsNothing | rock3d/r3d/textures.cpp:92-112 | when the packer accepts the empty list, the function ends without returning a value |
| Textures.Rects | rock3d/r3d/textures.cpp:83-89 | one rectangle per texture, with its id, width and height |
| Textures.BakeAtlas | rock3d/r3d/textures.cpp:74-112 | corrected: the result is whether the packer placed every rectangle; on failure nothing changes; on success texture k gets its own size and the corners of its place; ids, names and images are kept and the registry invariant holds |
| Textures.BakedSpan | rock3d/r3d/textures.cpp:98-111 | after a successful bake a texture's atlas span times 2048 is its width and height in texels |
| Textures.BakedCornersInUnitSquare | rock3d/r3d/textures.cpp:103-110 | a texture placed inside the canvas has both corners in [0, 1] |
| Render.Clamp01 | rock3d/r3d/render.cpp:119-121 | the result is in [0, 1], equals the input inside it, and is 0 below and 1 above |
| Render.ClampMonotone | rock3d/r3d/render.cpp:119-121 | clamping keeps order and is idempotent |
| Render.Ratio | rock3d/r3d/render.cpp:106-107 | a nonzero divisor gives the quotient, whose product with the divisor is the dividend |
| Render.Brightness | rock3d/r3d/render.cpp:116-121 | each of the three channels is in [0, 1], equals (bright + offset) / 256 when that is in range, and saturates at 0 below the range and at 1 above it |
| Render.Quad | rock3d/r3d/render.cpp:96-150 | four vertices at (one, z1), (two, z1), (two, z2), (one, z2); all carry (minU, minV, maxU - minU, maxV - minV) and one clamped brightness; texture coordinates (0, vt2), (ut2, vt2), (ut2, 0), (0, 0) with ut2 × pixel width = wall length and vt2 × pixel height = z2 - z1 |
| Render.AddWallAsWritten | rock3d/r3d/render.cpp:81-160 | no texture store or an unknown texture returns false and appends nothing; otherwise four vertices are appended and no value is returned |
| Render.AddWallAsWrittenReturnsNothing | rock3d/r3d/render.cpp:127-160 | a successful call as written returns no value to its caller |
| Render.AddWall | rock3d/r3d/render.cpp:81-160 | corrected: false exactly on the two failure paths, with nothing appended; true otherwise, with earlier vertices unchanged and exactly the wall's quad appended; the texture store is unchanged |
| Render.AddWallAppendsAsWritten | rock3d/r3d/render.cpp:127-150 | the corrected emitter appends exactly what the code as written appends |
| Render.NewContextDrawsNothing | rock3d/r3d/render.cpp:84-87 | a context whose texture store was never assigned draws no wall |
| Render.TwoWallsInOrder | rock3d/r3d/render.cpp:127-150 | two successful calls append their quads in call order after the earlier vertices |
| Render.WallOnBakedAtlas | rock3d/r3d/render.cpp:96-107 | on an atlas from the corrected bake, the u span of a wall times its atlas span covers the wall length in atlas texels |
| Render.QuadSpan | rock3d/r3d/render.cpp:101-107 | when the atlas span is the pixel width over 2048, u times the span times 2048 is the wall length |
| Engine.Start | rock3d/engine.cpp:46-50 | frame count, game time and accumulator start at 0, and the current time is the time read before the loop |
| Engine.FrameTime | rock3d/engine.cpp:65-71 | the frame time never exceeds `qwMaxMS`; it is the elapsed time when that is within the cap and the cap otherwise; `Engine::Tick` in src/engine.cpp lines 70-76 clamps the same way |
| Engine.DrainTicks | rock3d/engine.cpp:77-83 | the ticks are numbered on from f with game times stepping by the delta; their number times the delta plus the leftover is the accumulator, and the leftover is below the delta |
| Engine.DrainCount | rock3d/engine.cpp:74-83 | a drain runs floor(accumulator / delta) ticks and leaves accumulator mod delta |
| Engine.Drain | rock3d/engine.cpp:77-83 | the loop on wrapping `uint64_t` counters runs the ticks of the recursive reading and leaves the same counters, with less than a delta left over |
| Engine.Step | rock3d/engine.cpp:64-86 | a zero delta never finishes the pass; otherwise the pass drains the clamped frame time plus accumulator into numbered ticks and passes `Render` the leftover and the delta; `Engine::Tick` in src/engine.cpp lines 69-91 does the same per pass |
| Engine.StepTickCount | rock3d/engine.cpp:74-83 | a pass runs floor((accumulator + frame time) / delta) ticks and keeps the remainder |
| Engine.StartIsConsistent | rock3d/engine.cpp:46-50 | the starting locals satisfy game time = frame count × delta, with nothing left over and nothing elapsed |
| Engine.StepKeepsConsistent | rock3d/engine.cpp:74-86 | while no counter wraps, a pass keeps game time = frame count × delta and elapsed = game time + accumulator, numbers its ticks on from the frame count, and hands `Render` the leftover |
| Engine.StepNoWrap | rock3d/engine.cpp:74-83 | under the no-wrap bound none of a pass's sums reaches 2^64 |
| Engine.Run | rock3d/engine.cpp:52-87 | passes fail to finish exactly when the delta is zero; otherwise there is one render per time reading |
| Engine.Elapsed | rock3d/engine.cpp:65-71 | the clamped frame times of n passes add up to at most n × `qwMaxMS` |
| Engine.RunKeepsConsistent | rock3d/engine.cpp:52-87 | over any number of passes the ticks are numbered consecutively from the starting frame with game time frame × delta, and the accounting holds at the end |
| Engine.RunFromStart | rock3d/engine.cpp:46-87 | from the start of `Tick`, tick i has frame count i and game time i × delta; the accumulator stays below the delta; the clamped frame times sum to game time plus accumulator; the same holds for `Engine::Tick` in src/engine.cpp lines 51-92 |
| Engine.RenderGetsLeftover | rock3d/engine.cpp:86 | `Render` receives the leftover accumulator, which is below the delta, and the delta |

## Left out

- Platform I/O: the file read, the clock (`TimeMS`), event pumping and the
  application callbacks. They are function parameters, time readings or what
  the callbacks are passed. `EngineMain`, `Shutdown` and the never-ending
  outer loop are left out; one pass, or a finite list of passes, is modelled.
- jsoncpp parsing, bimg image decoding and stb_rect_pack packing are function
  parameters.
- Where jsoncpp throws on a conversion (an array or object read as a
  scalar, a negative or too large unsigned), the model returns the
  conversion's default value instead.
- Indexing a value that is neither an object nor `null` by key, or neither
  an array nor `null` by position, throws in jsoncpp, and the exception
  leaves `LoadLevelAsset`; the model reads `null` and carries on with the
  defaults.
- jsoncpp's `asString` of a number or boolean returns its text ("true",
  "false", the digits); the model returns "".
- jsoncpp's unsigned range test for a real compares against the maximum
  rounded to a double; the model accepts exactly [0, 2^n - 1].
- Floats are reals, so rounding to single precision is not modelled. Neither
  are `glm::length`, `atan` and `cos`, which are kept uninterpreted.
- Render.Ratio: a division by a zero pixel size gives an infinity or NaN in
  floats; the model gives 0, and `Render.Quad` only states the texture
  coordinates for a nonzero pixel size.
- The Euler-to-quaternion conversion of a location's rotation: the Euler
  angles are kept.
- The member order of JSON objects is fixed by the writer the round-trip
  lemmas use. Duplicate keys resolve to the first member.
- `LoadLevelAsset` takes `&data[0]` of the buffer it read. An empty buffer is
  handed to the parser like any other.
- `Random::Float`, `SetSeed` and the other seeding wrappers are left out.
  They default-construct `Xoshiro256pp` and call `seed()`, neither of which
  exists.
- The SplitMix64 and state-transition inverses are not proved, so there is
  no round trip for them. The bit-level proof is beyond the solver here. The
  partner of the transition is instead that the zero state is the only one
  that reaches zero.
- Bits.RotlBit: the population count is not stated as preserved. This
  follows from the per-bit law, but it is not proved.
- Bits.RotlInverse: holds only for 0 < k < 64, because `k == 0` shifts by 64,
  which C++ leaves undefined. The rotation amount is a `bv64` rather than
  an `int`.
- `QUEUE_MASK` masking is modelled as the remainder modulo 1024, which is
  the same thing for a power-of-two size.
- Random.UniformU32: the retry loops in the code end on the first accepted
  draw, but nothing bounds how many draws that takes. The model gives them
  fuel, and running out of it is a separate outcome, which
  `Random.SampleOutOfFuel` characterises exactly.
- Engine.RunKeepsConsistent: the accounting is proved only while the sum of
  the clamped frame times stays below 2^64. `Engine.Drain` and `Engine.Step`
  state the wrapping counters exactly for all inputs.
- `EventQueue` stores any element type; `EventQueue.EngineEventsInOrder`
  instantiates it with `Events.Event`, as the engine does. `std::variant`'s
  default value is the `filler` of `EventQueue.Empty`.
- Gamepad enums and the mouse button values are kept only as the shapes of
  `Events.Event`.
- The stbrp coordinate casts (`stbrp_coord`, `int(qwID)`) are taken as
  lossless.
- `RenderContext::Init`, `BakeTextureAtlas`, `ToGPU` and the GPU upload code
  are left out.

## Findings

| source | as written | input that shows it | evidently intended | confidence | as-written member | corrected member |
|---|---|---|---|---|---|---|
| rock3d/r3d/textures.cpp:83-89 | the rectangle built for each texture is never pushed onto `rects`, so the packer gets an empty list | any registry, e.g. one 64×32 texture: after baking its atlas corners are still zero | push one rectangle per texture, so every texture is placed | high (not executed) | Textures.BakeAsWrittenPlacesNothing | Textures.BakeAtlas |
| rock3d/r3d/textures.cpp:112 | `BakeAtlas` reaches the end of a `bool` function without a `return` | a packer that accepts the (empty) list | return true after placing every texture | high (not executed) | Textures.BakeAsWrittenReturnsNothing | Textures.BakeAtlas |
| rock3d/r3d/textures.cpp:102 | `cPixelSize` receives the rectangle's position `{rect.x, rect.y}` | a 64×32 texture placed at (128, 0) gets pixel size 128×0, and `AddWall` then divides by 0 | `cPixelSize = {rect.w, rect.h}` | high (not executed) | Textures.PlaceAsWrittenLosesSize | Textures.Place |
| rock3d/r3d/render.cpp:160 | `AddWall` ends without a `return` after appending the quad | any context with a texture store that knows the texture name | return true after the four vertices are appended | high (not executed) | Render.AddWallAsWrittenReturnsNothing | Render.AddWall |

=== FILE: assets.dfy ===
/** The asset reader of rock3d/assets.cpp: a list of resource locations
    searched in the order they were added, behind a guard that refuses paths
    which could climb out of a location.

    The platform's file read is a parameter `read` from a full path to the
    file's bytes, or `None` when the file cannot be read. */
module Assets {
  import opened Results

  type Bytes = seq<bv8>

  /** `pat` occurs in `s` starting at index `i`. */
  predicate OccursAt(s: string, pat: string, i: nat)
  {
    i + |pat| <= |s| && s[i..i + |pat|] == pat
  }

  predicate Contains(s: string, pat: string)
  {
    exists i: nat :: i <= |s| && OccursAt(s, pat, i)
  }

  /** `std::string_view::find(pat, from)`: the first index at or after
      `from` where `pat` occurs, or `None` for `npos`. */
  function Find(s: string, pat: string, from: nat): (r: Option<nat>)
    ensures r.Some? ==> from <= r.value && OccursAt(s, pat, r.value)
    ensures r.Some? ==> forall j: nat :: from <= j < r.value ==> !OccursAt(s, pat, j)
    ensures r.None? ==> forall j: nat :: from <= j ==> !OccursAt(s, pat, j)
    decreases |s| - from
  {
    if |s| < from + |pat| then None
    else if s[from..from + |pat|] == pat then Some(from)
    else Find(s, pat, from + 1)
  }

  /** `find` answers whether `pat` occurs at all. */
  lemma FindIffContains(s: string, pat: string)
    ensures Find(s, pat, 0).Some? <==> Contains(s, pat)
  {
    var r := Find(s, pat, 0);
    if r.Some? {
      assert r.value <= |s| && OccursAt(s, pat, r.value);
    }
  }

  /** What the guard is meant to catch: a `../` or `..\` anywhere, or a path
      of at least two characters ending in `..`. */
  predicate EscapesLocation(path: string)
  {
    || Contains(path, "../")
    || Contains(path, "..\\")
    || (|path| >= 2 && path[|path| - 2..] == "..")
  }

  /** `ContainsParentDir`: two searches, then a look at the last two
      characters. */
  function ContainsParentDir(path: string): (b: bool)
    ensures b <==> EscapesLocation(path)
  {
    FindIffContains(path, "../");
    FindIffContains(path, "..\\");
    if Find(path, "../", 0).Some? then true
    else if Find(path, "..\\", 0).Some? then true
    else if |path| > 1 then path[|path| - 2..] == ".."
    else false
  }

  /** Paths of fewer than two characters are never flagged, and `..` is. */
  lemma ShortPathsPass(path: string)
    requires |path| < 2
    ensures !ContainsParentDir(path)
  {
  }

  lemma DotDotIsFlagged()
    ensures ContainsParentDir("..")
  {
  }

  lemma SlashClimbIsFlagged()
    ensures ContainsParentDir("a/../b")
  {
    assert OccursAt("a/../b", "../", 2);
    assert Contains("a/../b", "../");
  }

  lemma BackslashClimbIsFlagged()
    ensures ContainsParentDir("a\\..\\b")
  {
    assert OccursAt("a\\..\\b", "..\\", 2);
    assert Contains("a\\..\\b", "..\\");
  }

  /** `readError_t`. */
  datatype ReadError = InvalidPath | NotFound

  /** `AssetsImpl`: the resource locations, in the order they were added. */
  datatype Locations = Locations(locations: seq<string>)

  /** `AddPath`: the new location goes last. */
  function AddPath(a: Locations, location: string): (a': Locations)
    ensures |a'.locations| == |a.locations| + 1
    ensures a'.locations[..|a.locations|] == a.locations
    ensures a'.locations[|a.locations|] == location
  {
    Locations(a.locations + [location])
  }

  /** `fmt::format("{}/{}", location, path)`. */
  function FullPath(location: string, path: string): string
  {
    location + "/" + path
  }

  /** The index of the first location, from `from` on, where reading the path
      succeeds. */
  function FirstHit(locations: seq<string>, path: string, read: string -> Option<Bytes>, from: nat): (r: Option<nat>)
    ensures r.Some? ==> from <= r.value < |locations| && read(FullPath(locations[r.value], path)).Some?
    ensures r.Some? ==> forall j :: from <= j < r.value ==> read(FullPath(locations[j], path)).None?
    ensures r.None? ==> forall j :: from <= j < |locations| ==> read(FullPath(locations[j], path)).None?
    decreases |locations| - from
  {
    if from >= |locations| then None
    else if read(FullPath(locations[from], path)).Some? then Some(from)
    else FirstHit(locations, path, read, from + 1)
  }

  /** `ReadToBuffer`: a flagged path is refused before any location is tried;
      otherwise the locations are tried in order and the first file read
      wins; with no success, or no locations, the file is not found. */
  function ReadToBuffer(a: Locations, path: string, read: string -> Option<Bytes>): (r: Result<Bytes, ReadError>)
    ensures EscapesLocation(path) <==> r == Err(InvalidPath)
    ensures r == Err(NotFound) <==>
      !EscapesLocation(path) && forall j :: 0 <= j < |a.locations| ==> read(FullPath(a.locations[j], path)).None?
    ensures r.Ok? ==> exists i :: (0 <= i < |a.locations|
      && read(FullPath(a.locations[i], path)) == Some(r.value)
      && forall j :: 0 <= j < i ==> read(FullPath(a.locations[j], path)).None?)
  {
    if ContainsParentDir(path) then Err(InvalidPath)
    else
      match FirstHit(a.locations, path, read, 0)
      case Some(i) => Ok(read(FullPath(a.locations[i], path)).value)
      case None => Err(NotFound)
  }

  /** Adding a location never changes a successful read, because earlier
      locations are tried first; a read that found nothing now reads the new
      location. */
  lemma AddPathKeepsEarlierReads(a: Locations, location: string, path: string, read: string -> Option<Bytes>)
    ensures ReadToBuffer(a, path, read).Ok? ==>
      ReadToBuffer(AddPath(a, location), path, read) == ReadToBuffer(a, path, read)
    ensures ReadToBuffer(a, path, read) == Err(NotFound) ==>
      ReadToBuffer(AddPath(a, location), path, read) ==
        match read(FullPath(location, path))
        case Some(data) => Ok(data)
        case None => Err(NotFound)
  {
    var a' := AddPath(a, location);
    if !ContainsParentDir(path) {
      FirstHitPrefix(a.locations, location, path, read, 0);
    }
  }

  lemma {:induction false} FirstHitPrefix(locations: seq<string>, location: string, path: string,
                                          read: string -> Option<Bytes>, from: nat)
    requires from <= |locations|
    ensures FirstHit(locations + [location], path, read, from) ==
      match FirstHit(locations, path, read, from)
      case Some(i) => Some(i)
      case None => if read(FullPath(location, path)).Some? then Some(|locations|) else None
    decreases |locations| - from
  {
    var l' := locations + [location];
    if from < |locations| {
      assert l'[from] == locations[from];
      FirstHitPrefix(locations, location, path, read, from + 1);
    } else {
      assert l'[from] == location;
    }
  }
}

=== FILE: bits.dfy ===
/** The 64-bit left rotation used by the random number generator.
    rock3d/bit.h and rock3d/util.h each define the same `Rotl`; one definition
    models both. The rotation amount, an `int` in the source, is carried as a
    `bv64` here; only 0 < k < 64 is meaningful. */
module Bits {

  /** Rotate `x` left by `k` bits: `(x << k) | (x >> (64 - k))`.
      With `k == 0` the right shift would be by 64, which C++ leaves undefined,
      so the amount is restricted to 0 < k < 64. */
  function Rotl(x: bv64, k: bv64): bv64
    requires 0 < k < 64
  {
    (x << k) | (x >> (64 - k))
  }

  /** Bit `i` of `x`, as 0 or 1. */
  function Bit(x: bv64, i: bv64): bv64
    requires i < 64
  {
    (x >> i) & 1
  }

  /* The solver cannot reason about 64-bit shifts by a symbolic amount within
     its budget, but it settles each fixed amount at once. The laws below are
     therefore proved by exhaustion: one lemma per legal amount, and a tree of
     case splits, four amounts at a time, that picks the right one. */

  // Bit i of Rotl(x, k) is bit (i - k) mod 64 of x, for each fixed k.
  lemma RotlBit1(x: bv64, i: bv64) requires i < 64 ensures Bit(Rotl(x, 1), i) == Bit(x, (i + 63) % 64) {}
  lemma RotlBit2(x: bv64, i: bv64) requires i < 64 ensures Bit(Rotl(x, 2), i) == Bit(x, (i + 62) % 64) {}
  lemma RotlBit3(x: bv64, i: bv64) requires i < 64 ensures Bit(Rotl(x, 3), i) == Bit(x, (i + 61) % 64) {}
  lemma RotlBit4(x: bv64, i: bv64) requires i < 64 ensures Bit(Rotl(x, 4), i) == Bit(x, (i + 60) % 64) {}
  lemma RotlBit5(x: bv64, i: bv64) requires i < 64 ensures Bit(Rotl(x, 5), i) == Bit(x, (i + 59) % 64) {}
  lemma RotlBit6(x: bv64, i: bv64) requires i < 64 ensures Bit(Rotl(x, 6), i) == Bit(x, (i + 58) % 64) {}
  lemma RotlBit7(x: bv64, i: bv64) requires i < 64 ensures Bit(Rotl(x, 7), i) == Bit(x, (i + 57) % 64) {}
  lemma RotlBit8(x: bv64, i: bv64) requires i < 64 ensures Bit(Rotl(x, 8), i) == Bit(x, (i + 56) % 64) {}
  lemma RotlBit9(x: bv64, i: bv64) requires i < 64 ensures Bit(Rotl(x, 9), i) == Bit(x, (i + 55) % 64) {}
  lemma RotlBit10(x: bv64, i: bv64) requires i < 64 ensures Bit(Rotl(x, 10), i) == Bit(x, (i + 54) % 64) {}
  lemma RotlBit11(x: bv64, i: bv64) requires i < 64 ensures Bit(Rotl(x, 11), i) == Bit(x, (i + 53) % 64) {}
  lemma RotlBit12(x: bv64, i: bv64) requires i < 64 ensures Bit(Rotl(x, 12), i) == Bit(x, (i + 52) % 64) {}
  lemma RotlBit13(x: bv64, i: bv64) requires i < 64 ensures Bit(Rotl(x, 13), i) == Bit(x, (i + 51) % 64) {}
  lemma RotlBit14(x: bv64, i: bv64) requires i < 64 ensures Bit(Rotl(x, 14), i) == Bit(x, (i + 50) % 64) {}
  lemma RotlBit15(x: bv64, i: bv64) requires i < 64 ensures Bit(Rotl(x, 15), i) == Bit(x, (i + 49) % 64) {}
  lemma RotlBit16(x: bv64, i: bv64) requires i < 64 ensures Bit(Rotl(x, 16), i) == Bit(x, (i + 48) % 64) {}
  lemma RotlBit17(x: bv64, i: bv64) requires i < 64 ensures Bit(Rotl(x, 17), i) == Bit(x, (i + 47) % 64) {}
  lemma RotlBit18(x: bv64, i: bv64) requires i < 64 ensures Bit(Rotl(x, 18), i) == Bit(x, (i + 46) % 64) {}
  lemma RotlBit19(x: bv64, i: bv64) requires i < 64 ensures Bit(Rotl(x, 19), i) == Bit(x, (i + 45) % 64) {}
  lemma RotlBit20(x: bv64, i: bv64) requires i < 64 ensures Bit(Rotl(x, 20), i) == Bit(x, (i + 44) % 64) {}
  lemma RotlBit21(x: bv64, i: bv64) requires i < 64 ensures Bit(Rotl(x, 21), i) == Bit(x, (i + 43) % 64) {}
  lemma RotlBit22(x: bv64, i: bv64) requires i < 64 ensures Bit(Rotl(x, 22), i) == Bit(x, (i + 42) % 64) {}
  lemma RotlBit23(x: bv64, i: bv64) requires i < 64 ensures Bit(Rotl(x, 23), i) == Bit(x, (i + 41) % 64) {}
  lemma RotlBit24(x: bv64, i: bv64) requires i < 64 ensures Bit(Rotl(x, 24), i) == Bit(x, (i + 40) % 64) {}
  lemma RotlBit25(x: bv64, i: bv64) requires i < 64 ensures Bit(Rotl(x, 25), i) == Bit(x, (i + 39) % 64) {}
  lemma RotlBit26(x: bv64, i: bv64) requires i < 64 ensures Bit(Rotl(x, 26), i) == Bit(x, (i + 38) % 64) {}
  lemma RotlBit27(x: bv64, i: bv64) requires i < 64 ensures Bit(Rotl(x, 27), i) == Bit(x, (i + 37) % 64) {}
  lemma RotlBit28(x: bv64, i: bv64) requires i < 64 ensures Bit(Rotl(x, 28), i) == Bit(x, (i + 36) % 64) {}
  lemma RotlBit29(x: bv64, i: bv64) requires i < 64 ensures Bit(Rotl(x, 29), i) == Bit(x, (i + 35) % 64) {}
  lemma RotlBit30(x: bv64, i: bv64) requires i < 64 ensures Bit(Rotl(x, 30), i) == Bit(x, (i + 34) % 64) {}
  lemma RotlBit31(x: bv64, i: bv64) requires i < 64 ensures Bit(Rotl(x, 31), i) == Bit(x, (i + 33) % 64) {}
  lemma RotlBit32(x: bv64, i: bv64) requires i < 64 ensures Bit(Rotl(x, 32), i) == Bit(x, (i + 32) % 64) {}
  lemma RotlBit33(x: bv64, i: bv64) requires i < 64 ensures Bit(Rotl(x, 33), i) == Bit(x, (i + 31) % 64) {}
  lemma RotlBit34(x: bv64, i: bv64) requires i < 64 ensures Bit(Rotl(x, 34), i) == Bit(x, (i + 30) % 64) {}
  lemma RotlBit35(x: bv64, i: bv64) requires i < 64 ensures Bit(Rotl(x, 35), i) == Bit(x, (i + 29) % 64) {}
  lemma RotlBit36(x: bv64, i: bv64) requires i < 64 ensures Bit(Rotl(x, 36), i) == Bit(x, (i + 28) % 64) {}
  lemma RotlBit37(x: bv64, i: bv64) requires i < 64 ensures Bit(Rotl(x, 37), i) == Bit(x, (i + 27) % 64) {}
  lemma RotlBit38(x: bv64, i: bv64) requires i < 64 ensures Bit(Rotl(x, 38), i) == Bit(x, (i + 26) % 64) {}
  lemma RotlBit39(x: bv64, i: bv64) requires i < 64 ensures Bit(Rotl(x, 39), i) == Bit(x, (i + 25) % 64) {}
  lemma RotlBit40(x: bv64, i: bv64) requires i < 64 ensures Bit(Rotl(x, 40), i) == Bit(x, (i + 24) % 64) {}
  lemma RotlBit41(x: bv64, i: bv64) requires i < 64 ensures Bit(Rotl(x, 41), i) == Bit(x, (i + 23) % 64) {}
  lemma RotlBit42(x: bv64, i: bv64) requires i < 64 ensures Bit(Rotl(x, 42), i) == Bit(x, (i + 22) % 64) {}
  lemma RotlBit43(x: bv64, i: bv64) requires i < 64 ensures Bit(Rotl(x, 43), i) == Bit(x, (i + 21) % 64) {}
  lemma RotlBit44(x: bv64, i: bv64) requires i < 64 ensures Bit(Rotl(x, 44), i) == Bit(x, (i + 20) % 64) {}
  lemma RotlBit45(x: bv64, i: bv64) requires i < 64 ensures Bit(Rotl(x, 45), i) == Bit(x, (i + 19) % 64) {}
  lemma RotlBit46(x: bv64, i: bv64) requires i < 64 ensures Bit(Rotl(x, 46), i) == Bit(x, (i + 18) % 64) {}
  lemma RotlBit47(x: bv64, i: bv64) requires i < 64 ensures Bit(Rotl(x, 47), i) == Bit(x, (i + 17) % 64) {}
  lemma RotlBit48(x: bv64, i: bv64) requires i < 64 ensures Bit(Rotl(x, 48), i) == Bit(x, (i + 16) % 64) {}
  lemma RotlBit49(x: bv64, i: bv64) requires i < 64 ensures Bit(Rotl(x, 49), i) == Bit(x, (i + 15) % 64) {}
  lemma RotlBit50(x: bv64, i: bv64) requires i < 64 ensures Bit(Rotl(x, 50), i) == Bit(x, (i + 14) % 64) {}
  lemma RotlBit51(x: bv64, i: bv64) requires i < 64 ensures Bit(Rotl(x, 51), i) == Bit(x, (i + 13) % 64) {}
  lemma RotlBit52(x: bv64, i: bv64) requires i < 64 ensures Bit(Rotl(x, 52), i) == Bit(x, (i + 12) % 64) {}
  lemma RotlBit53(x: bv64, i: bv64) requires i < 64 ensures Bit(Rotl(x, 53), i) == Bit(x, (i + 11) % 64) {}
  lemma RotlBit54(x: bv64, i: bv64) requires i < 64 ensures Bit(Rotl(x, 54), i) == Bit(x, (i + 10) % 64) {}
  lemma RotlBit55(x: bv64, i: bv64) requires i < 64 ensures Bit(Rotl(x, 55), i) == Bit(x, (i + 9) % 64) {}
  lemma RotlBit56(x: bv64, i: bv64) requires i < 64 ensures Bit(Rotl(x, 56), i) == Bit(x, (i + 8) % 64) {}
  lemma RotlBit57(x: bv64, i: bv64) requires i < 64 ensures Bit(Rotl(x, 57), i) == Bit(x, (i + 7) % 64) {}
  lemma RotlBit58(x: bv64, i: bv64) requires i < 64 ensures Bit(Rotl(x, 58), i) == Bit(x, (i + 6) % 64) {}
  lemma RotlBit59(x: bv64, i: bv64) requires i < 64 ensures Bit(Rotl(x, 59), i) == Bit(x, (i + 5) % 64) {}
  lemma RotlBit60(x: bv64, i: bv64) requires i < 64 ensures Bit(Rotl(x, 60), i) == Bit(x, (i + 4) % 64) {}
  lemma RotlBit61(x: bv64, i: bv64) requires i < 64 ensures Bit(Rotl(x, 61), i) == Bit(x, (i + 3) % 64) {}
  lemma RotlBit62(x: bv64, i: bv64) requires i < 64 ensures Bit(Rotl(x, 62), i) == Bit(x, (i + 2) % 64) {}
  lemma RotlBit63(x: bv64, i: bv64) requires i < 64 ensures Bit(Rotl(x, 63), i) == Bit(x, (i + 1) % 64) {}

  lemma RotlBit1To4(x: bv64, k: bv64, i: bv64)
    requires 1 <= k <= 4 && i < 64
    ensures Bit(Rotl(x, k), i) == Bit(x, (i + 64 - k) % 64)
  {
    if k == 1 { RotlBit1(x, i); }
    else if k == 2 { RotlBit2(x, i); }
    else if k == 3 { RotlBit3(x, i); }
    else if k == 4 { RotlBit4(x, i); }
  }

  lemma RotlBit5To8(x: bv64, k: bv64, i: bv64)
    requires 5 <= k <= 8 && i < 64
    ensures Bit(Rotl(x, k), i) == Bit(x, (i + 64 - k) % 64)
  {
    if k == 5 { RotlBit5(x, i); }
    else if k == 6 { RotlBit6(x, i); }
    else if k == 7 { RotlBit7(x, i); }
    else if k == 8 { RotlBit8(x, i); }
  }

  lemma RotlBit9To12(x: bv64, k: bv64, i: bv64)
    requires 9 <= k <= 12 && i < 64
    ensures Bit(Rotl(x, k), i) == Bit(x, (i + 64 - k) % 64)
  {
    if k == 9 { RotlBit9(x, i); }
    else if k == 10 { RotlBit10(x, i); }
    else if k == 11 { RotlBit11(x, i); }
    else if k == 12 { RotlBit12(x, i); }
  }

  lemma RotlBit13To16(x: bv64, k: bv64, i: bv64)
    requires 13 <= k <= 16 && i < 64
    ensures Bit(Rotl(x, k), i) == Bit(x, (i + 64 - k) % 64)
  {
    if k == 13 { RotlBit13(x, i); }
    else if k == 14 { RotlBit14(x, i); }
    else if k == 15 { RotlBit15(x, i); }
    else if k == 16 { RotlBit16(x, i); }
  }

  lemma RotlBit17To20(x: bv64, k: bv64, i: bv64)
    requires 17 <= k <= 20 && i < 64
    ensures Bit(Rotl(x, k), i) == Bit(x, (i + 64 - k) % 64)
  {
    if k == 17 { RotlBit17(x, i); }
    else if k == 18 { RotlBit18(x, i); }
    else if k == 19 { RotlBit19(x, i); }
    else if k == 20 { RotlBit20(x, i); }
  }

  lemma RotlBit21To24(x: bv64, k: bv64, i: bv64)
    requires 21 <= k <= 24 && i < 64
    ensures Bit(Rotl(x, k), i) == Bit(x, (i + 64 - k) % 64)
  {
    if k == 21 { RotlBit21(x, i); }
    else if k == 22 { RotlBit22(x, i); }
    else if k == 23 { RotlBit23(x, i); }
    else if k == 24 { RotlBit24(x, i); }
  }

  lemma RotlBit25To28(x: bv64, k: bv64, i: bv64)
    requires 25 <= k <= 28 && i < 64
    ensures Bit(Rotl(x, k), i) == Bit(x, (i + 64 - k) % 64)
  {
    if k == 25 { RotlBit25(x, i); }
    else if k == 26 { RotlBit26(x, i); }
    else if k == 27 { RotlBit27(x, i); }
    else if k == 28 { RotlBit28(x, i); }
  }

  lemma RotlBit29To32(x: bv64, k: bv64, i: bv64)
    requires 29 <= k <= 32 && i < 64
    ensures Bit(Rotl(x, k), i) == Bit(x, (i + 64 - k) % 64)
  {
    if k == 29 { RotlBit29(x, i); }
    else if k == 30 { RotlBit30(x, i); }
    else if k == 31 { RotlBit31(x, i); }
    else if k == 32 { RotlBit32(x, i); }
  }

  lemma RotlBit33To36(x: bv64, k: bv64, i: bv64)
    requires 33 <= k <= 36 && i < 64
    ensures Bit(Rotl(x, k), i) == Bit(x, (i + 64 - k) % 64)
  {
    if k == 33 { RotlBit33(x, i); }
    else if k == 34 { RotlBit34(x, i); }
    else if k == 35 { RotlBit35(x, i); }
    else if k == 36 { RotlBit36(x, i); }
  }

  lemma RotlBit37To40(x: bv64, k: bv64, i: bv64)
    requires 37 <= k <= 40 && i < 64
    ensures Bit(Rotl(x, k), i) == Bit(x, (i + 64 - k) % 64)
  {
    if k == 37 { RotlBit37(x, i); }
    else if k == 38 { RotlBit38(x, i); }
    else if k == 39 { RotlBit39(x, i); }
    else if k == 40 { RotlBit40(x, i); }
  }

  lemma RotlBit41To44(x: bv64, k: bv64, i: bv64)
    requires 41 <= k <= 44 && i < 64
    ensures Bit(Rotl(x, k), i) == Bit(x, (i + 64 - k) % 64)
  {
    if k == 41 { RotlBit41(x, i); }
    else if k == 42 { RotlBit42(x, i); }
    else if k == 43 { RotlBit43(x, i); }
    else if k == 44 { RotlBit44(x, i); }
  }

  lemma RotlBit45To48(x: bv64, k: bv64, i: bv64)
    requires 45 <= k <= 48 && i < 64
    ensures Bit(Rotl(x, k), i) == Bit(x, (i + 64 - k) % 64)
  {
    if k == 45 { RotlBit45(x, i); }
    else if k == 46 { RotlBit46(x, i); }
    else if k == 47 { RotlBit47(x, i); }
    else if k == 48 { RotlBit48(x, i); }
  }

  lemma RotlBit49To52(x: bv64, k: bv64, i: bv64)
    requires 49 <= k <= 52 && i < 64
    ensures Bit(Rotl(x, k), i) == Bit(x, (i + 64 - k) % 64)
  {
    if k == 49 { RotlBit49(x, i); }
    else if k == 50 { RotlBit50(x, i); }
    else if k == 51 { RotlBit51(x, i); }
    else if k == 52 { RotlBit52(x, i); }
  }

  lemma RotlBit53To56(x: bv64, k: bv64, i: bv64)
    requires 53 <= k <= 56 && i < 64
    ensures Bit(Rotl(x, k), i) == Bit(x, (i + 64 - k) % 64)
  {
    if k == 53 { RotlBit53(x, i); }
    else if k == 54 { RotlBit54(x, i); }
    else if k == 55 { RotlBit55(x, i); }
    else if k == 56 { RotlBit56(x, i); }
  }

  lemma RotlBit57To60(x: bv64, k: bv64, i: bv64)
    requires 57 <= k <= 60 && i < 64
    ensures Bit(Rotl(x, k), i) == Bit(x, (i + 64 - k) % 64)
  {
    if k == 57 { RotlBit57(x, i); }
    else if k == 58 { RotlBit58(x, i); }
    else if k == 59 { RotlBit59(x, i); }
    else if k == 60 { RotlBit60(x, i); }
  }

  lemma RotlBit61To63(x: bv64, k: bv64, i: bv64)
    requires 61 <= k <= 63 && i < 64
    ensures Bit(Rotl(x, k), i) == Bit(x, (i + 64 - k) % 64)
  {
    if k == 61 { RotlBit61(x, i); }
    else if k == 62 { RotlBit62(x, i); }
    else if k == 63 { RotlBit63(x, i); }
  }

  lemma RotlBit1To16(x: bv64, k: bv64, i: bv64)
    requires 1 <= k <= 16 && i < 64
    ensures Bit(Rotl(x, k), i) == Bit(x, (i + 64 - k) % 64)
  {
    if k <= 4 { RotlBit1To4(x, k, i); }
    else if k <= 8 { RotlBit5To8(x, k, i); }
    else if k <= 12 { RotlBit9To12(x, k, i); }
    else if k <= 16 { RotlBit13To16(x, k, i); }
  }

  lemma RotlBit17To32(x: bv64, k: bv64, i: bv64)
    requires 17 <= k <= 32 && i < 64
    ensures Bit(Rotl(x, k), i) == Bit(x, (i + 64 - k) % 64)
  {
    if k <= 20 { RotlBit17To20(x, k, i); }
    else if k <= 24 { RotlBit21To24(x, k, i); }
    else if k <= 28 { RotlBit25To28(x, k, i); }
    else if k <= 32 { RotlBit29To32(x, k, i); }
  }

  lemma RotlBit33To48(x: bv64, k: bv64, i: bv64)
    requires 33 <= k <= 48 && i < 64
    ensures Bit(Rotl(x, k), i) == Bit(x, (i + 64 - k) % 64)
  {
    if k <= 36 { RotlBit33To36(x, k, i); }
    else if k <= 40 { RotlBit37To40(x, k, i); }
    else if k <= 44 { RotlBit41To44(x, k, i); }
    else if k <= 48 { RotlBit45To48(x, k, i); }
  }

  lemma RotlBit49To63(x: bv64, k: bv64, i: bv64)
    requires 49 <= k <= 63 && i < 64
    ensures Bit(Rotl(x, k), i) == Bit(x, (i + 64 - k) % 64)
  {
    if k <= 52 { RotlBit49To52(x, k, i); }
    else if k <= 56 { RotlBit53To56(x, k, i); }
    else if k <= 60 { RotlBit57To60(x, k, i); }
    else if k <= 63 { RotlBit61To63(x, k, i); }
  }

  /** `Rotl` is a rotation: bit `i` of the result is bit `(i - k) mod 64` of `x`. */
  lemma RotlBit(x: bv64, k: bv64, i: bv64)
    requires 0 < k < 64 && i < 64
    ensures Bit(Rotl(x, k), i) == Bit(x, (i + 64 - k) % 64)
  {
    if k <= 16 { RotlBit1To16(x, k, i); }
    else if k <= 32 { RotlBit17To32(x, k, i); }
    else if k <= 48 { RotlBit33To48(x, k, i); }
    else if k <= 63 { RotlBit49To63(x, k, i); }
  }

  // Rotating back by 64 - k restores the word, for each fixed k. As with the
  // per-bit law above, a symbolic shift amount is out of the solver's reach,
  // so the law is proved amount by amount and `RotlInverse` dispatches.
  lemma RotlInverse1(x: bv64) ensures Rotl(Rotl(x, 1), 63) == x {}
  lemma RotlInverse2(x: bv64) ensures Rotl(Rotl(x, 2), 62) == x {}
  lemma RotlInverse3(x: bv64) ensures Rotl(Rotl(x, 3), 61) == x {}
  lemma RotlInverse4(x: bv64) ensures Rotl(Rotl(x, 4), 60) == x {}
  lemma RotlInverse5(x: bv64) ensures Rotl(Rotl(x, 5), 59) == x {}
  lemma RotlInverse6(x: bv64) ensures Rotl(Rotl(x, 6), 58) == x {}
  lemma RotlInverse7(x: bv64) ensures Rotl(Rotl(x, 7), 57) == x {}
  lemma RotlInverse8(x: bv64) ensures Rotl(Rotl(x, 8), 56) == x {}
  lemma RotlInverse9(x: bv64) ensures Rotl(Rotl(x, 9), 55) == x {}
  lemma RotlInverse10(x: bv64) ensures Rotl(Rotl(x, 10), 54) == x {}
  lemma RotlInverse11(x: bv64) ensures Rotl(Rotl(x, 11), 53) == x {}
  lemma RotlInverse12(x: bv64) ensures Rotl(Rotl(x, 12), 52) == x {}
  lemma RotlInverse13(x: bv64) ensures Rotl(Rotl(x, 13), 51) == x {}
  lemma RotlInverse14(x: bv64) ensures Rotl(Rotl(x, 14), 50) == x {}
  lemma RotlInverse15(x: bv64) ensures Rotl(Rotl(x, 15), 49) == x {}
  lemma RotlInverse16(x: bv64) ensures Rotl(Rotl(x, 16), 48) == x {}
  lemma RotlInverse17(x: bv64) ensures Rotl(Rotl(x, 17), 47) == x {}
  lemma RotlInverse18(x: bv64) ensures Rotl(Rotl(x, 18), 46) == x {}
  lemma RotlInverse19(x: bv64) ensures Rotl(Rotl(x, 19), 45) == x {}
  lemma RotlInverse20(x: bv64) ensures Rotl(Rotl(x, 20), 44) == x {}
  lemma RotlInverse21(x: bv64) ensures Rotl(Rotl(x, 21), 43) == x {}
  lemma RotlInverse22(x: bv64) ensures Rotl(Rotl(x, 22), 42) == x {}
  lemma RotlInverse23(x: bv64) ensures Rotl(Rotl(x, 23), 41) == x {}
  lemma RotlInverse24(x: bv64) ensures Rotl(Rotl(x, 24), 40) == x {}
  lemma RotlInverse25(x: bv64) ensures Rotl(Rotl(x, 25), 39) == x {}
  lemma RotlInverse26(x: bv64) ensures Rotl(Rotl(x, 26), 38) == x {}
  lemma RotlInverse27(x: bv64) ensures Rotl(Rotl(x, 27), 37) == x {}
  lemma RotlInverse28(x: bv64) ensures Rotl(Rotl(x, 28), 36) == x {}
  lemma RotlInverse29(x: bv64) ensures Rotl(Rotl(x, 29), 35) == x {}
  lemma RotlInverse30(x: bv64) ensures Rotl(Rotl(x, 30), 34) == x {}
  lemma RotlInverse31(x: bv64) ensures Rotl(Rotl(x, 31), 33) == x {}
  lemma RotlInverse32(x: bv64) ensures Rotl(Rotl(x, 32), 32) == x {}
  lemma RotlInverse33(x: bv64) ensures Rotl(Rotl(x, 33), 31) == x {}
  lemma RotlInverse34(x: bv64) ensures Rotl(Rotl(x, 34), 30) == x {}
  lemma RotlInverse35(x: bv64) ensures Rotl(Rotl(x, 35), 29) == x {}
  lemma RotlInverse36(x: bv64) ensures Rotl(Rotl(x, 36), 28) == x {}
  lemma RotlInverse37(x: bv64) ensures Rotl(Rotl(x, 37), 27) == x {}
  lemma RotlInverse38(x: bv64) ensures Rotl(Rotl(x, 38), 26) == x {}
  lemma RotlInverse39(x: bv64) ensures Rotl(Rotl(x, 39), 25) == x {}
  lemma RotlInverse40(x: bv64) ensures Rotl(Rotl(x, 40), 24) == x {}
  lemma RotlInverse41(x: bv64) ensures Rotl(Rotl(x, 41), 23) == x {}
  lemma RotlInverse42(x: bv64) ensures Rotl(Rotl(x, 42), 22) == x {}
  lemma RotlInverse43(x: bv64) ensures Rotl(Rotl(x, 43), 21) == x {}
  lemma RotlInverse44(x: bv64) ensures Rotl(Rotl(x, 44), 20) == x {}
  lemma RotlInverse45(x: bv64) ensures Rotl(Rotl(x, 45), 19) == x {}
  lemma RotlInverse46(x: bv64) ensures Rotl(Rotl(x, 46), 18) == x {}
  lemma RotlInverse47(x: bv64) ensures Rotl(Rotl(x, 47), 17) == x {}
  lemma RotlInverse48(x: bv64) ensures Rotl(Rotl(x, 48), 16) == x {}
  lemma RotlInverse49(x: bv64) ensures Rotl(Rotl(x, 49), 15) == x {}
  lemma RotlInverse50(x: bv64) ensures Rotl(Rotl(x, 50), 14) == x {}
  lemma RotlInverse51(x: bv64) ensures Rotl(Rotl(x, 51), 13) == x {}
  lemma RotlInverse52(x: bv64) ensures Rotl(Rotl(x, 52), 12) == x {}
  lemma RotlInverse53(x: bv64) ensures Rotl(Rotl(x, 53), 11) == x {}
  lemma RotlInverse54(x: bv64) ensures Rotl(Rotl(x, 54), 10) == x {}
  lemma RotlInverse55(x: bv64) ensures Rotl(Rotl(x, 55), 9) == x {}
  lemma RotlInverse56(x: bv64) ensures Rotl(Rotl(x, 56), 8) == x {}
  lemma RotlInverse57(x: bv64) ensures Rotl(Rotl(x, 57), 7) == x {}
  lemma RotlInverse58(x: bv64) ensures Rotl(Rotl(x, 58), 6) == x {}
  lemma RotlInverse59(x: bv64) ensures Rotl(Rotl(x, 59), 5) == x {}
  lemma RotlInverse60(x: bv64) ensures Rotl(Rotl(x, 60), 4) == x {}
  lemma RotlInverse61(x: bv64) ensures Rotl(Rotl(x, 61), 3) == x {}
  lemma RotlInverse62(x: bv64) ensures Rotl(Rotl(x, 62), 2) == x {}
  lemma RotlInverse63(x: bv64) ensures Rotl(Rotl(x, 63), 1) == x {}

  lemma RotlInverse1To16(x: bv64, k: bv64)
    requires 1 <= k <= 16
    ensures Rotl(Rotl(x, k), 64 - k) == x
  {
    if k == 1 { RotlInverse1(x); }
    else if k == 2 { RotlInverse2(x); }
    else if k == 3 { RotlInverse3(x); }
    else if k == 4 { RotlInverse4(x); }
    else if k == 5 { RotlInverse5(x); }
    else if k == 6 { RotlInverse6(x); }
    else if k == 7 { RotlInverse7(x); }
    else if k == 8 { RotlInverse8(x); }
    else if k == 9 { RotlInverse9(x); }
    else if k == 10 { RotlInverse10(x); }
    else if k == 11 { RotlInverse11(x); }
    else if k == 12 { RotlInverse12(x); }
    else if k == 13 { RotlInverse13(x); }
    else if k == 14 { RotlInverse14(x); }
    else if k == 15 { RotlInverse15(x); }
    else if k == 16 { RotlInverse16(x); }
  }

  lemma RotlInverse17To32(x: bv64, k: bv64)
    requires 17 <= k <= 32
    ensures Rotl(Rotl(x, k), 64 - k) == x
  {
    if k == 17 { RotlInverse17(x); }
    else if k == 18 { RotlInverse18(x); }
    else if k == 19 { RotlInverse19(x); }
    else if k == 20 { RotlInverse20(x); }
    else if k == 21 { RotlInverse21(x); }
    else if k == 22 { RotlInverse22(x); }
    else if k == 23 { RotlInverse23(x); }
    else if k == 24 { RotlInverse24(x); }
    else if k == 25 { RotlInverse25(x); }
    else if k == 26 { RotlInverse26(x); }
    else if k == 27 { RotlInverse27(x); }
    else if k == 28 { RotlInverse28(x); }
    else if k == 29 { RotlInverse29(x); }
    else if k == 30 { RotlInverse30(x); }
    else if k == 31 { RotlInverse31(x); }
    else if k == 32 { RotlInverse32(x); }
  }

  lemma RotlInverse33To48(x: bv64, k: bv64)
    requires 33 <= k <= 48
    ensures Rotl(Rotl(x, k), 64 - k) == x
  {
    if k == 33 { RotlInverse33(x); }
    else if k == 34 { RotlInverse34(x); }
    else if k == 35 { RotlInverse35(x); }
    else if k == 36 { RotlInverse36(x); }
    else if k == 37 { RotlInverse37(x); }
    else if k == 38 { RotlInverse38(x); }
    else if k == 39 { RotlInverse39(x); }
    else if k == 40 { RotlInverse40(x); }
    else if k == 41 { RotlInverse41(x); }
    else if k == 42 { RotlInverse42(x); }
    else if k == 43 { RotlInverse43(x); }
    else if k == 44 { RotlInverse44(x); }
    else if k == 45 { RotlInverse45(x); }
    else if k == 46 { RotlInverse46(x); }
    else if k == 47 { RotlInverse47(x); }
    else if k == 48 { RotlInverse48(x); }
  }

  lemma RotlInverse49To63(x: bv64, k: bv64)
    requires 49 <= k <= 63
    ensures Rotl(Rotl(x, k), 64 - k) == x
  {
    if k == 49 { RotlInverse49(x); }
    else if k == 50 { RotlInverse50(x); }
    else if k == 51 { RotlInverse51(x); }
    else if k == 52 { RotlInverse52(x); }
    else if k == 53 { RotlInverse53(x); }
    else if k == 54 { RotlInverse54(x); }
    else if k == 55 { RotlInverse55(x); }
    else if k == 56 { RotlInverse56(x); }
    else if k == 57 { RotlInverse57(x); }
    else if k == 58 { RotlInverse58(x); }
    else if k == 59 { RotlInverse59(x); }
    else if k == 60 { RotlInverse60(x); }
    else if k == 61 { RotlInverse61(x); }
    else if k == 62 { RotlInverse62(x); }
    else if k == 63 { RotlInverse63(x); }
  }

  /** Rotating by `k` and then by `64 - k` gives back the original word. */
  lemma RotlInverse(x: bv64, k: bv64)
    requires 0 < k < 64
    ensures Rotl(Rotl(x, k), 64 - k) == x
  {
    if k <= 16 { RotlInverse1To16(x, k); }
    else if k <= 32 { RotlInverse17To32(x, k); }
    else if k <= 48 { RotlInverse33To48(x, k); }
    else { RotlInverse49To63(x, k); }
  }

  /** Rotating zero gives zero. */
  lemma RotlZero(k: bv64)
    requires 0 < k < 64
    ensures Rotl(0, k) == 0
  {
  }
}


=== FILE: engine.dfy ===
/** The fixed-timestep loop of `EngineImpl::Tick` (rock3d/engine.cpp) and of
    `Engine::Tick` (src/engine.cpp), which do the same arithmetic: each pass
    measures the time since the previous pass, clamps it to `qwMaxMS`, adds it
    to an accumulator, runs one game tick per whole `qwDeltaMS` in the
    accumulator, and hands the leftover to `Render`.

    One pass of the outer loop is a pure step from a `Clock` and the platform
    time read in that pass. Event pumping and dispatch are left to
    `EventQueue`; the application callbacks are represented by what they are
    passed. Every counter is a `uint64_t`, so sums wrap modulo 2^64. */
module Engine {
  import opened Results

  const Two64: nat := 0x1_0000_0000_0000_0000

  type U64 = x: int | 0 <= x < Two64

  /** `uint64_t` arithmetic: the value modulo 2^64. */
  function Wrap(x: int): (w: U64)
    ensures 0 <= x < Two64 ==> w == x
  {
    x % Two64
  }

  /** `App::config_s`, without the name. */
  datatype Config = Config(deltaMS: U64, maxMS: U64)

  /** `App::tickParams_s`. */
  datatype TickParams = TickParams(frameCount: U64, gameTime: U64, deltaTime: U64)

  /** `App::renderParams_s`. */
  datatype RenderParams = RenderParams(accumTime: U64, deltaTime: U64)

  /** The loop's locals `f`, `t`, `currentTime` and `accumulator`. */
  datatype Clock = Clock(frame: U64, time: U64, current: U64, accumulator: U64)

  /** The locals before the first pass, with the time read before the loop. */
  function Start(startTime: U64): (c: Clock)
    ensures c.frame == 0 && c.time == 0 && c.accumulator == 0
    ensures c.current == startTime
  {
    Clock(0, 0, startTime, 0)
  }

  /** The frame time of one pass: the time since the previous reading
      (wrapping if the clock went backwards), capped at `qwMaxMS`. */
  function FrameTime(config: Config, current: U64, newTime: U64): (ft: U64)
    ensures ft <= config.maxMS
    ensures ft <= Wrap(newTime - current)
    ensures Wrap(newTime - current) <= config.maxMS ==> ft == Wrap(newTime - current)
    ensures current <= newTime && newTime - current <= config.maxMS ==> ft == newTime - current
    ensures Wrap(newTime - current) > config.maxMS ==> ft == config.maxMS
  {
    var elapsed := Wrap(newTime - current);
    if elapsed > config.maxMS then config.maxMS else elapsed
  }

  /** `n * d`, by repeated addition, so that the solver only ever sees
      linear steps. */
  function Mul(n: nat, d: nat): nat
  {
    if n == 0 then 0 else Mul(n - 1, d) + d
  }

  lemma {:induction false} MulIsProduct(n: nat, d: nat)
    ensures Mul(n, d) == n * d
  {
    if n > 0 {
      MulIsProduct(n - 1, d);
    }
  }

  lemma {:induction false} MulMonotone(a: nat, b: nat, d: nat)
    requires a <= b
    ensures Mul(a, d) <= Mul(b, d)
    decreases b
  {
    if a < b {
      MulMonotone(a, b - 1, d);
    }
  }

  /** A positive delta runs at most one tick per millisecond. */
  lemma {:induction false} MulAtLeast(n: nat, d: nat)
    requires d > 0
    ensures n <= Mul(n, d)
  {
    if n > 0 {
      MulAtLeast(n - 1, d);
    }
  }

  lemma {:induction false} MulAdd(a: nat, b: nat, d: nat)
    ensures Mul(a + b, d) == Mul(a, d) + Mul(b, d)
    decreases b
  {
    if b > 0 {
      MulAdd(a, b - 1, d);
    }
  }

  /** `acc == q * d + r` with `0 <= r < d` fixes the quotient and the
      remainder. */
  lemma DivModUnique(acc: nat, q: nat, r: nat, d: nat)
    requires 0 < d && r < d && acc == Mul(q, d) + r
    ensures acc / d == q && acc % d == r
  {
    MulIsProduct(q, d);
    var q', r' := acc / d, acc % d;
    assert acc == q' * d + r';
    assert (q - q') * d == r' - r;
    if q > q' {
      ProductAtLeast(q - q', d);
    } else if q < q' {
      ProductAtLeast(q' - q, d);
    }
  }

  lemma ProductAtLeast(x: int, d: int)
    requires x >= 1 && d > 0
    ensures x * d >= d
  {
  }

  /** Wrapping twice is wrapping once. */
  lemma WrapAdd(a: int, b: int)
    ensures Wrap(Wrap(a) + b) == Wrap(a + b)
  {
    var k := a / Two64;
    assert a == Wrap(a) + k * Two64;
    assert a + b == Wrap(a) + b + k * Two64;
  }

  /** What the drain loop leaves behind: the ticks it ran, in order, and the
      frame count, game time and accumulator after it. The two counters are
      kept exact here and reduced modulo 2^64 where they are stored, which
      gives the same values as wrapping at every `+=`. */
  datatype Drained = Drained(ticks: seq<TickParams>, frame: nat, time: nat, accumulator: U64)

  /** The drain loop read recursively: while the accumulator holds a whole
      delta, run tick `(f, t, delta)`, then count the frame, advance game
      time by the delta and take the delta off the accumulator. The ticks
      are numbered on from `f` and their game times step by the delta; there
      are as many as whole deltas in the accumulator, and less than a delta
      is left over. */
  function DrainTicks(delta: U64, f: nat, t: nat, acc: U64): (d: Drained)
    requires delta > 0
    ensures acc == Mul(|d.ticks|, delta) + d.accumulator && d.accumulator < delta
    ensures forall i {:trigger d.ticks[i]} :: 0 <= i < |d.ticks| ==>
      d.ticks[i] == TickParams(Wrap(f + i), Wrap(t + Mul(i, delta)), delta)
    ensures d.frame == f + |d.ticks| && d.time == t + Mul(|d.ticks|, delta)
    decreases acc
  {
    if acc < delta then Drained([], f, t, acc)
    else
      var rest := DrainTicks(delta, f + 1, t + delta, acc - delta);
      var ticks := [TickParams(Wrap(f), Wrap(t), delta)] + rest.ticks;
      assert forall i :: 1 <= i < |ticks| ==> ticks[i] == rest.ticks[i - 1];
      Drained(ticks, rest.frame, rest.time, rest.accumulator)
  }

  /** The number of ticks is the accumulator divided by the delta, rounded
      down, and the leftover is the remainder. */
  lemma DrainCount(delta: U64, f: nat, t: nat, acc: U64)
    requires delta > 0
    ensures |DrainTicks(delta, f, t, acc).ticks| == acc / delta
    ensures DrainTicks(delta, f, t, acc).accumulator == acc % delta
  {
    var d := DrainTicks(delta, f, t, acc);
    DivModUnique(acc, |d.ticks|, d.accumulator, delta);
  }

  /** The drain loop as written, `while (accumulator >= qwDeltaMS)`, on
      `uint64_t` counters, for a positive delta. It runs the ticks of the
      recursive reading and leaves the same counters. */
  method Drain(delta: U64, f: U64, t: U64, acc: U64) returns (ticks: seq<TickParams>, f': U64, t': U64, acc': U64)
    requires delta > 0
    ensures acc == Mul(|ticks|, delta) + acc' && acc' < delta
    ensures forall i {:trigger ticks[i]} :: 0 <= i < |ticks| ==>
      ticks[i] == TickParams(Wrap(f + i), Wrap(t + Mul(i, delta)), delta)
    ensures f' == Wrap(f + |ticks|) && t' == Wrap(t + Mul(|ticks|, delta))
    ensures var d := DrainTicks(delta, f, t, acc);
      ticks == d.ticks && f' == Wrap(d.frame) && t' == Wrap(d.time) && acc' == d.accumulator
  {
    ticks, f', t', acc' := [], f, t, acc;
    while acc' >= delta
      invariant acc == Mul(|ticks|, delta) + acc'
      invariant f' == Wrap(f + |ticks|) && t' == Wrap(t + Mul(|ticks|, delta))
      invariant forall i {:trigger ticks[i]} :: 0 <= i < |ticks| ==>
        ticks[i] == TickParams(Wrap(f + i), Wrap(t + Mul(i, delta)), delta)
      decreases acc'
    {
      DrainLoopStep(delta, f, t, ticks);
      ticks := ticks + [TickParams(f', t', delta)];
      f', t', acc' := Wrap(f' + 1), Wrap(t' + delta), acc' - delta;
    }
    DrainUnique(delta, f, t, acc, ticks, acc');
  }

  /** One turn of the drain loop keeps the ticks numbered on from `f`. */
  lemma DrainLoopStep(delta: U64, f: U64, t: U64, ticks: seq<TickParams>)
    requires forall i {:trigger ticks[i]} :: 0 <= i < |ticks| ==>
      ticks[i] == TickParams(Wrap(f + i), Wrap(t + Mul(i, delta)), delta)
    ensures var n := |ticks|;
      var ticks' := ticks + [TickParams(Wrap(f + n), Wrap(t + Mul(n, delta)), delta)];
      && Wrap(Wrap(f + n) + 1) == Wrap(f + (n + 1))
      && Wrap(Wrap(t + Mul(n, delta)) + delta) == Wrap(t + Mul(n + 1, delta))
      && forall i {:trigger ticks'[i]} :: 0 <= i < |ticks'| ==>
           ticks'[i] == TickParams(Wrap(f + i), Wrap(t + Mul(i, delta)), delta)
  {
    var n := |ticks|;
    WrapAdd(f + n, 1);
    WrapAdd(t + Mul(n, delta), delta);
  }

  /** The ticks are fixed by how many there are, and how many is fixed by
      the accumulator. */
  lemma DrainUnique(delta: U64, f: nat, t: nat, acc: U64, ticks: seq<TickParams>, leftover: nat)
    requires delta > 0 && acc == Mul(|ticks|, delta) + leftover && leftover < delta
    requires forall i {:trigger ticks[i]} :: 0 <= i < |ticks| ==>
      ticks[i] == TickParams(Wrap(f + i), Wrap(t + Mul(i, delta)), delta)
    ensures DrainTicks(delta, f, t, acc).ticks == ticks
    ensures DrainTicks(delta, f, t, acc).accumulator == leftover
  {
    var d := DrainTicks(delta, f, t, acc);
    DivModUnique(acc, |ticks|, leftover, delta);
    DivModUnique(acc, |d.ticks|, d.accumulator, delta);
  }

  /** One pass of the outer loop, given the time read in it: the ticks run,
      what `Render` is passed, and the locals for the next pass. A zero
      delta makes the drain condition always true, so the pass never ends. */
  datatype Outcome = Rendered(ticks: seq<TickParams>, render: RenderParams, next: Clock) | Spins

  function Step(config: Config, c: Clock, newTime: U64): (o: Outcome)
    ensures o.Spins? <==> config.deltaMS == 0
    ensures o.Rendered? ==>
      var acc := Wrap(c.accumulator + FrameTime(config, c.current, newTime));
      && acc == Mul(|o.ticks|, config.deltaMS) + o.next.accumulator
      && o.next.accumulator < config.deltaMS
      && o.render == RenderParams(o.next.accumulator, config.deltaMS)
      && o.next.current == newTime
      && o.next.frame == Wrap(c.frame + |o.ticks|)
      && o.next.time == Wrap(c.time + Mul(|o.ticks|, config.deltaMS))
      && forall i {:trigger o.ticks[i]} :: 0 <= i < |o.ticks| ==>
           o.ticks[i] == TickParams(Wrap(c.frame + i), Wrap(c.time + Mul(i, config.deltaMS)), config.deltaMS)
  {
    if config.deltaMS == 0 then Spins
    else
      var acc := Wrap(c.accumulator + FrameTime(config, c.current, newTime));
      var d := DrainTicks(config.deltaMS, c.frame, c.time, acc);
      Rendered(d.ticks, RenderParams(d.accumulator, config.deltaMS), Clock(Wrap(d.frame), Wrap(d.time), newTime, d.accumulator))
  }

  /** A pass runs floor((accumulator + frame time) / delta) ticks and keeps
      the remainder. */
  lemma StepTickCount(config: Config, c: Clock, newTime: U64)
    requires config.deltaMS > 0
    ensures var acc := Wrap(c.accumulator + FrameTime(config, c.current, newTime));
      var o := Step(config, c, newTime);
      |o.ticks| == acc / config.deltaMS && o.next.accumulator == acc % config.deltaMS
  {
    var acc := Wrap(c.accumulator + FrameTime(config, c.current, newTime));
    DrainCount(config.deltaMS, c.frame, c.time, acc);
  }

  /** The accounting the loop keeps while no counter wraps: game time is the
      frame count times the delta, less than one delta is left over, and the
      clamped frame times summed so far (`elapsed`) are the game time plus
      the leftover. */
  predicate Consistent(delta: nat, c: Clock, elapsed: nat)
  {
    c.time == Mul(c.frame, delta) && c.accumulator < delta && elapsed == c.time + c.accumulator
  }

  lemma StartIsConsistent(delta: nat, startTime: U64)
    requires delta > 0
    ensures Consistent(delta, Start(startTime), 0)
  {
  }

  /** Ticks numbered on from `frame`, each at game time `frame * delta`
      and with the delta as its step. */
  predicate Numbered(ticks: seq<TickParams>, frame: nat, delta: nat)
  {
    forall i {:trigger ticks[i]} :: 0 <= i < |ticks| ==>
      ticks[i].frameCount == frame + i && ticks[i].gameTime == Mul(frame + i, delta) && ticks[i].deltaTime == delta
  }

  lemma NumberedAppend(a: seq<TickParams>, b: seq<TickParams>, frame: nat, next: nat, delta: nat)
    requires Numbered(a, frame, delta) && next == frame + |a| && Numbered(b, next, delta)
    ensures Numbered(a + b, frame, delta)
  {
    forall i | |a| <= i < |a + b|
      ensures (a + b)[i] == b[i - |a|]
    {
    }
  }

  /** A pass keeps the accounting, numbers its ticks on from the current
      frame count with game time `frame * delta`, and hands `Render` the
      leftover. */
  lemma StepKeepsConsistent(config: Config, c: Clock, newTime: U64, elapsed: nat)
    requires config.deltaMS > 0 && Consistent(config.deltaMS, c, elapsed)
    requires elapsed + config.maxMS < Two64
    ensures var o := Step(config, c, newTime);
      && o.Rendered?
      && Consistent(config.deltaMS, o.next, elapsed + FrameTime(config, c.current, newTime))
      && o.next.frame == c.frame + |o.ticks|
      && o.next.current == newTime
      && o.render == RenderParams(o.next.accumulator, config.deltaMS)
      && Numbered(o.ticks, c.frame, config.deltaMS)
  {
    var delta := config.deltaMS;
    var o := Step(config, c, newTime);
    var n := |o.ticks|;
    StepNoWrap(config, c, newTime, elapsed);
    forall i | 0 <= i < n
      ensures o.ticks[i].frameCount == c.frame + i && o.ticks[i].gameTime == Mul(c.frame + i, delta)
    {
      MulMonotone(i, n, delta);
      MulAdd(c.frame, i, delta);
    }
  }

  /** Under the bound, none of the sums in a pass reaches 2^64. */
  lemma StepNoWrap(config: Config, c: Clock, newTime: U64, elapsed: nat)
    requires config.deltaMS > 0 && Consistent(config.deltaMS, c, elapsed)
    requires elapsed + config.maxMS < Two64
    ensures var o := Step(config, c, newTime);
      var ft := FrameTime(config, c.current, newTime);
      && c.accumulator + ft == Mul(|o.ticks|, config.deltaMS) + o.next.accumulator
      && c.frame + |o.ticks| <= c.time + Mul(|o.ticks|, config.deltaMS) < Two64
      && o.next.time == c.time + Mul(|o.ticks|, config.deltaMS) == Mul(c.frame + |o.ticks|, config.deltaMS)
      && o.next.frame == c.frame + |o.ticks|
  {
    var o := Step(config, c, newTime);
    var n := |o.ticks|;
    MulAdd(c.frame, n, config.deltaMS);
    MulAtLeast(c.frame + n, config.deltaMS);
  }

  /** Several passes, one per time reading, with the ticks of all of them in
      order; `None` when a pass never ends. */
  datatype Ran = Ran(ticks: seq<TickParams>, renders: seq<RenderParams>, clock: Clock)

  function Run(config: Config, c: Clock, times: seq<U64>): (r: Option<Ran>)
    ensures r.None? <==> config.deltaMS == 0 && |times| > 0
    ensures r.Some? ==> |r.value.renders| == |times|
    ensures times == [] ==> r == Some(Ran([], [], c))
    decreases |times|
  {
    if times == [] then Some(Ran([], [], c))
    else
      match Step(config, c, times[0])
      case Spins => None
      case Rendered(ticks, render, next) =>
        match Run(config, next, times[1..])
        case None => None
        case Some(rest) => Some(Ran(ticks + rest.ticks, [render] + rest.renders, rest.clock))
  }

  /** The sum of the clamped frame times of the passes. */
  function Elapsed(config: Config, current: U64, times: seq<U64>): (e: nat)
    ensures e <= Mul(|times|, config.maxMS)
    decreases |times|
  {
    if times == [] then 0
    else FrameTime(config, current, times[0]) + Elapsed(config, times[0], times[1..])
  }

  /** Over any number of passes whose clamped frame times cannot wrap the
      counters, the ticks are numbered consecutively on from the starting
      frame, each at game time `frame * delta`, and the accounting holds at
      the end. */
  lemma {:induction false} RunKeepsConsistent(config: Config, c: Clock, times: seq<U64>, elapsed: nat)
    requires config.deltaMS > 0 && Consistent(config.deltaMS, c, elapsed)
    requires elapsed + Mul(|times|, config.maxMS) < Two64
    ensures var r := Run(config, c, times);
      && r.Some?
      && Consistent(config.deltaMS, r.value.clock, elapsed + Elapsed(config, c.current, times))
      && r.value.clock.frame == c.frame + |r.value.ticks|
      && Numbered(r.value.ticks, c.frame, config.deltaMS)
    decreases |times|
  {
    if times != [] {
      var ft := FrameTime(config, c.current, times[0]);
      MulMonotone(1, |times|, config.maxMS);
      StepKeepsConsistent(config, c, times[0], elapsed);
      var o := Step(config, c, times[0]);
      RunKeepsConsistent(config, o.next, times[1..], elapsed + ft);
      var rest := Run(config, o.next, times[1..]).value;
      assert Run(config, c, times) == Some(Ran(o.ticks + rest.ticks, [o.render] + rest.renders, rest.clock));
      assert Elapsed(config, c.current, times) == ft + Elapsed(config, o.next.current, times[1..]);
      NumberedAppend(o.ticks, rest.ticks, c.frame, o.next.frame, config.deltaMS);
    }
  }

  /** From the start of `Tick`: ticks are numbered 0, 1, 2, ... with game
      time `n * qwDeltaMS`, what is left in the accumulator is below the
      delta, and the clamped frame times add up to the game time plus that
      leftover. */
  lemma RunFromStart(config: Config, startTime: U64, times: seq<U64>)
    requires config.deltaMS > 0
    requires |times| * config.maxMS < Two64
    ensures var r := Run(config, Start(startTime), times);
      && r.Some?
      && (forall i {:trigger r.value.ticks[i]} :: 0 <= i < |r.value.ticks| ==>
            r.value.ticks[i].frameCount == i && r.value.ticks[i].gameTime == i * config.deltaMS
            && r.value.ticks[i].deltaTime == config.deltaMS)
      && r.value.clock.accumulator < config.deltaMS
      && r.value.clock.frame == |r.value.ticks|
      && r.value.clock.time == |r.value.ticks| * config.deltaMS
      && Elapsed(config, startTime, times) == r.value.clock.time + r.value.clock.accumulator
  {
    MulIsProduct(|times|, config.maxMS);
    RunKeepsConsistent(config, Start(startTime), times, 0);
    var r := Run(config, Start(startTime), times).value;
    MulIsProduct(|r.ticks|, config.deltaMS);
    forall i | 0 <= i < |r.ticks|
      ensures r.ticks[i].frameCount == i && r.ticks[i].gameTime == i * config.deltaMS
    {
      MulIsProduct(i, config.deltaMS);
    }
  }

  /** Each pass's render call gets the accumulator the pass leaves behind. */
  lemma RenderGetsLeftover(config: Config, c: Clock, newTime: U64)
    requires config.deltaMS > 0
    ensures var o := Step(config, c, newTime);
      o.render.accumTime == o.next.accumulator < config.deltaMS && o.render.deltaTime == config.deltaMS
  {
  }
}

=== FILE: event_queue.dfy ===
/** The input event queue of rock3d/event.cpp: a ring of 1024 slots with a
    head (the oldest stored event) and a tail (the next free slot). One slot
    always stays free, so the ring holds at most 1023 events, and queueing
    into a full ring drops the oldest event.

    The ring is modelled as a value; `Contents` reads it as the sequence of
    stored events, oldest first, and every operation is specified by what it
    does to that sequence. The queue is generic in what it stores; the engine
    stores `Events.Event`. */
module EventQueue {
  import opened Results
  import Events

  /** `QUEUE_SIZE`. */
  const Size: nat := 1024

  /** A slot index. */
  type Index = i: nat | i < Size

  /** `Next`: the following slot, wrapping from the last slot to the first.
      Masking with `QUEUE_MASK` = 1023 keeps the low ten bits, which for a
      power-of-two size is the remainder modulo the size. */
  function Next(i: Index): (j: Index)
    ensures j == i + 1 || (i == Size - 1 && j == 0)
  {
    (i + 1) % Size
  }

  /** `m_ncEvents`, `m_qwHead` and `m_qwTail`. */
  datatype Ring<T> = Ring(slots: seq<T>, head: Index, tail: Index)

  predicate Valid<T>(r: Ring<T>)
  {
    |r.slots| == Size
  }

  /** A new queue: head and tail at slot 0, every slot holding `filler`
      (the default-constructed event). */
  function Empty<T>(filler: T): (r: Ring<T>)
    ensures Valid(r)
    ensures Contents(r) == []
  {
    Ring(seq(Size, _ => filler), 0, 0)
  }

  /** The number of stored events: the distance from head to tail around the
      ring. */
  function Count<T>(r: Ring<T>): (n: nat)
    ensures n < Size
    ensures n == 0 <==> r.head == r.tail
    ensures (r.head + n) % Size == r.tail
  {
    (r.tail - r.head) % Size
  }

  /** The stored events, oldest first. */
  function Contents<T>(r: Ring<T>): (s: seq<T>)
    requires Valid(r)
    ensures |s| == Count(r)
    ensures forall k :: 0 <= k < |s| ==> s[k] == r.slots[(r.head + k) % Size]
  {
    seq(Count(r), k requires 0 <= k < Count(r) => r.slots[(r.head + k) % Size])
  }

  /** `Queue`: store `e` at the tail. When the slot after the tail is the
      head the ring is full, and the head first moves on, dropping the oldest
      event. */
  function Queue<T>(r: Ring<T>, e: T): (r': Ring<T>)
    requires Valid(r)
    ensures Valid(r')
    ensures Count(r) < Size - 1 ==> Contents(r') == Contents(r) + [e]
    ensures Count(r) == Size - 1 ==> Contents(r') == Contents(r)[1..] + [e]
  {
    var head := if Next(r.tail) == r.head then Next(r.head) else r.head;
    var r' := Ring(r.slots[r.tail := e], head, Next(r.tail));
    QueueContents(r, e, r');
    r'
  }

  /** Below twice the size, the remainder modulo the size is at most one
      subtraction away. */
  lemma ModSize(x: nat)
    requires x < 2 * Size
    ensures x % Size == if x < Size then x else x - Size
  {
  }

  /** The `k`-th stored slot is never the tail. */
  lemma StoredSlotNotTail<T>(r: Ring<T>, k: nat)
    requires k < Count(r)
    ensures (r.head + k) % Size != r.tail
  {
    ModSize(r.head + k);
    ModSize(r.head + Count(r));
  }

  lemma QueueContents<T>(r: Ring<T>, e: T, r': Ring<T>)
    requires Valid(r)
    requires r'.slots == r.slots[r.tail := e] && r'.tail == Next(r.tail)
    requires r'.head == if Next(r.tail) == r.head then Next(r.head) else r.head
    ensures Valid(r')
    ensures Count(r) < Size - 1 ==> Contents(r') == Contents(r) + [e]
    ensures Count(r) == Size - 1 ==> Contents(r') == Contents(r)[1..] + [e]
  {
    if Count(r) < Size - 1 {
      QueueNotFull(r, e, r');
    } else {
      QueueFull(r, e, r');
    }
  }

  lemma QueueNotFull<T>(r: Ring<T>, e: T, r': Ring<T>)
    requires Valid(r) && Count(r) < Size - 1
    requires r'.slots == r.slots[r.tail := e] && r'.tail == Next(r.tail)
    requires r'.head == if Next(r.tail) == r.head then Next(r.head) else r.head
    ensures Valid(r')
    ensures Contents(r') == Contents(r) + [e]
  {
    var n := Count(r);
    ModSize(r.head + n);
    assert Next(r.tail) != r.head;
    assert Count(r') == n + 1 by {
      ModSize(r.head + n + 1);
    }
    forall k | 0 <= k < n
      ensures Contents(r')[k] == Contents(r)[k]
    {
      StoredSlotNotTail(r, k);
    }
    assert Contents(r')[n] == e by {
      ModSize(r.head + n);
    }
  }

  lemma QueueFull<T>(r: Ring<T>, e: T, r': Ring<T>)
    requires Valid(r) && Count(r) == Size - 1
    requires r'.slots == r.slots[r.tail := e] && r'.tail == Next(r.tail)
    requires r'.head == if Next(r.tail) == r.head then Next(r.head) else r.head
    ensures Valid(r')
    ensures Contents(r') == Contents(r)[1..] + [e]
  {
    var n := Count(r);
    ModSize(r.head + n);
    assert Next(r.tail) == r.head;
    assert Count(r') == n;
    forall k | 0 <= k < n - 1
      ensures Contents(r')[k] == Contents(r)[k + 1]
    {
      DroppedOldestShift(r, e, r', k);
    }
    assert Contents(r')[n - 1] == e by {
      ModSize(r'.head + n - 1);
    }
  }

  /** After the head moves on, stored slot `k` of the new ring is stored slot
      `k + 1` of the old one, untouched by the write at the tail. */
  lemma DroppedOldestShift<T>(r: Ring<T>, e: T, r': Ring<T>, k: nat)
    requires Valid(r) && Count(r) == Size - 1 && k < Size - 2
    requires r'.slots == r.slots[r.tail := e]
    requires r'.head == Next(r.head)
    ensures r'.slots[(r'.head + k) % Size] == r.slots[(r.head + k + 1) % Size]
  {
    ModSize(r'.head + k);
    ModSize(r.head + k + 1);
    StoredSlotNotTail(r, k + 1);
  }

  /** `Poll`: the oldest event and the ring without it, or `None` and the
      ring unchanged when it is empty. */
  datatype Polled<T> = Polled(event: Option<T>, rest: Ring<T>)

  function Poll<T>(r: Ring<T>): (p: Polled<T>)
    requires Valid(r)
    ensures Valid(p.rest)
    ensures Contents(r) == [] <==> p.event.None?
    ensures Contents(r) == [] ==> p.rest == r
    ensures Contents(r) != [] ==> p.event == Some(Contents(r)[0]) && Contents(p.rest) == Contents(r)[1..]
  {
    if r.head == r.tail then Polled(None, r)
    else
      var rest := r.(head := Next(r.head));
      PollContents(r);
      Polled(Some(r.slots[r.head]), rest)
  }

  /** Moving the head on from a non-empty ring drops exactly the oldest
      event. */
  lemma PollContents<T>(r: Ring<T>)
    requires Valid(r) && r.head != r.tail
    ensures Contents(r)[0] == r.slots[r.head]
    ensures Contents(r.(head := Next(r.head))) == Contents(r)[1..]
  {
    var rest := r.(head := Next(r.head));
    var n := Count(r);
    ModSize(r.head + n);
    ModSize(Next(r.head) + n - 1);
    assert Count(rest) == n - 1;
    forall k | 0 <= k < n - 1
      ensures Contents(rest)[k] == Contents(r)[k + 1]
    {
      ModSize(Next(r.head) + k);
      ModSize(r.head + k + 1);
    }
  }

  /** The queue as a first-in first-out sequence: queueing then polling
      an empty queue hands back the same event and leaves it empty again. */
  lemma QueueThenPollEmpty<T>(r: Ring<T>, e: T)
    requires Valid(r) && Contents(r) == []
    ensures Poll(Queue(r, e)).event == Some(e)
    ensures Contents(Poll(Queue(r, e)).rest) == []
  {
    assert Contents(Queue(r, e)) == [e];
  }

  /** Events come out in the order they went in: polling after a queue that
      did not overflow returns what polling before it would have, and the
      new event stays at the back. */
  lemma PollAfterQueue<T>(r: Ring<T>, e: T)
    requires Valid(r) && Contents(r) != [] && Count(r) < Size - 1
    ensures Poll(Queue(r, e)).event == Poll(r).event
    ensures Contents(Poll(Queue(r, e)).rest) == Contents(Poll(r).rest) + [e]
  {
    var q := Queue(r, e);
    assert Contents(q) == Contents(r) + [e];
    assert Contents(q)[1..] == Contents(r)[1..] + [e];
  }

  /** The engine's queue of `Events.Event`: a key press queued before a
      mouse motion on a new queue is polled first, then the motion, and the
      queue is empty afterwards. */
  lemma EngineEventsInOrder(filler: Events.Event, key: Events.Event, motion: Events.Event)
    requires key.KeyEvent? && motion.MouseMotion?
    ensures var q := Queue(Queue(Empty(filler), key), motion);
      && Poll(q).event == Some(key)
      && Poll(Poll(q).rest).event == Some(motion)
      && Poll(Poll(Poll(q).rest).rest).event.None?
  {
    var q1 := Queue(Empty(filler), key);
    var q := Queue(q1, motion);
    assert Contents(q1) == [key];
    assert Contents(q) == [key, motion];
    assert Contents(Poll(q).rest) == [motion];
    assert Contents(Poll(Poll(q).rest).rest) == [];
  }
}

=== FILE: events.dfy ===
/** The keyboard codes and input events of include/rock3d/event.h.

    The enumerators of `keyboardScan_e` and `keyboardKey_e` are `int`
    constants, so they are `bv32` values here, each declared under its
    enumerator's name. A key either has the value of the character it types,
    or, when it types none, the value of its scan code tagged with bit 30 by
    `detail::ScanToKey`. */
module Events {

  /** The values `keyboardScan_e` lists: the USB HID keyboard codes 0, 4 to
      101, 103 to 115 and 224 to 231. */
  predicate IsScanCode(c: bv32)
  {
    c == 0 || 4 <= c <= 101 || 103 <= c <= 115 || 224 <= c <= 231
  }

  /** `keyboardScan_e`. */
  type Scan = c: bv32 | IsScanCode(c)

  const ScanNone: Scan := 0
  const ScanA: Scan := 4
  const ScanB: Scan := 5
  const ScanC: Scan := 6
  const ScanD: Scan := 7
  const ScanE: Scan := 8
  const ScanF: Scan := 9
  const ScanG: Scan := 10
  const ScanH: Scan := 11
  const ScanI: Scan := 12
  const ScanJ: Scan := 13
  const ScanK: Scan := 14
  const ScanL: Scan := 15
  const ScanM: Scan := 16
  const ScanN: Scan := 17
  const ScanO: Scan := 18
  const ScanP: Scan := 19
  const ScanQ: Scan := 20
  const ScanR: Scan := 21
  const ScanS: Scan := 22
  const ScanT: Scan := 23
  const ScanU: Scan := 24
  const ScanV: Scan := 25
  const ScanW: Scan := 26
  const ScanX: Scan := 27
  const ScanY: Scan := 28
  const ScanZ: Scan := 29
  const Scan1: Scan := 30
  const Scan2: Scan := 31
  const Scan3: Scan := 32
  const Scan4: Scan := 33
  const Scan5: Scan := 34
  const Scan6: Scan := 35
  const Scan7: Scan := 36
  const Scan8: Scan := 37
  const Scan9: Scan := 38
  const Scan0: Scan := 39
  const ScanReturn: Scan := 40
  const ScanEscape: Scan := 41
  const ScanBackspace: Scan := 42
  const ScanTab: Scan := 43
  const ScanSpace: Scan := 44
  const ScanMinus: Scan := 45
  const ScanEquals: Scan := 46
  const ScanLeftbracket: Scan := 47
  const ScanRightbracket: Scan := 48
  const ScanBackslash: Scan := 49
  const ScanNonushash: Scan := 50
  const ScanSemicolon: Scan := 51
  const ScanApostrophe: Scan := 52
  const ScanGrave: Scan := 53
  const ScanComma: Scan := 54
  const ScanPeriod: Scan := 55
  const ScanSlash: Scan := 56
  const ScanCapslock: Scan := 57
  const ScanF1: Scan := 58
  const ScanF2: Scan := 59
  const ScanF3: Scan := 60
  const ScanF4: Scan := 61
  const ScanF5: Scan := 62
  const ScanF6: Scan := 63
  const ScanF7: Scan := 64
  const ScanF8: Scan := 65
  const ScanF9: Scan := 66
  const ScanF10: Scan := 67
  const ScanF11: Scan := 68
  const ScanF12: Scan := 69
  const ScanPrintscreen: Scan := 70
  const ScanScrolllock: Scan := 71
  const ScanPause: Scan := 72
  const ScanInsert: Scan := 73
  const ScanHome: Scan := 74
  const ScanPageup: Scan := 75
  const ScanDelete: Scan := 76
  const ScanEnd: Scan := 77
  const ScanPagedown: Scan := 78
  const ScanRight: Scan := 79
  const ScanLeft: Scan := 80
  const ScanDown: Scan := 81
  const ScanUp: Scan := 82
  const ScanNumlockclear: Scan := 83
  const ScanKpDivide: Scan := 84
  const ScanKpMultiply: Scan := 85
  const ScanKpMinus: Scan := 86
  const ScanKpPlus: Scan := 87
  const ScanKpEnter: Scan := 88
  const ScanKp1: Scan := 89
  const ScanKp2: Scan := 90
  const ScanKp3: Scan := 91
  const ScanKp4: Scan := 92
  const ScanKp5: Scan := 93
  const ScanKp6: Scan := 94
  const ScanKp7: Scan := 95
  const ScanKp8: Scan := 96
  const ScanKp9: Scan := 97
  const ScanKp0: Scan := 98
  const ScanKpPeriod: Scan := 99
  const ScanNonusbackslash: Scan := 100
  const ScanApplication: Scan := 101
  const ScanKpEquals: Scan := 103
  const ScanF13: Scan := 104
  const ScanF14: Scan := 105
  const ScanF15: Scan := 106
  const ScanF16: Scan := 107
  const ScanF17: Scan := 108
  const ScanF18: Scan := 109
  const ScanF19: Scan := 110
  const ScanF20: Scan := 111
  const ScanF21: Scan := 112
  const ScanF22: Scan := 113
  const ScanF23: Scan := 114
  const ScanF24: Scan := 115
  const ScanLctrl: Scan := 224
  const ScanLshift: Scan := 225
  const ScanLalt: Scan := 226
  const ScanLgui: Scan := 227
  const ScanRctrl: Scan := 228
  const ScanRshift: Scan := 229
  const ScanRalt: Scan := 230
  const ScanRgui: Scan := 231

  /** `KSCAN_MAX`. */
  const ScanMax: bv32 := 512

  /** Every listed scan code is below `KSCAN_MAX`. */
  lemma ScanBelowMax(s: Scan)
    ensures s < ScanMax
  {
    assert IsScanCode(s);
  }

  /** The tag bit `1 << 30`. */
  const KeyTag: bv32 := 1 << 30

  /** `detail::ScanToKey`: the scan code with bit 30 set. */
  function ScanToKey(s: bv32): (k: bv32)
    ensures k & KeyTag == KeyTag
    ensures k & !KeyTag == s & !KeyTag
  {
    s | KeyTag
  }

  /** Clears the tag bit, recovering the scan code of a scan-derived key. */
  function KeyToScan(k: bv32): (s: bv32)
    ensures s & KeyTag == 0
    ensures s | (k & KeyTag) == k
  {
    k & !KeyTag
  }

  /** For scan codes below 2^30, clearing the tag inverts `ScanToKey`. */
  lemma ScanToKeyRoundTrip(s: bv32)
    requires s < KeyTag
    ensures KeyToScan(ScanToKey(s)) == s
  {
  }

  /** For scan codes below 2^30, `ScanToKey` is injective. */
  lemma ScanToKeyInjective(a: bv32, b: bv32)
    requires a < KeyTag && b < KeyTag
    ensures ScanToKey(a) == ScanToKey(b) <==> a == b
  {
    ScanToKeyRoundTrip(a);
    ScanToKeyRoundTrip(b);
  }

  /** The values of the character keys of `keyboardKey_e`. */
  predicate IsCharKey(c: bv32)
  {
    c == 0 || 8 <= c <= 9 || c == 13 || c == 27 || 32 <= c <= 64 || 91 <= c <= 122 || c == 127
  }

  /** The scan codes that have a key of their own in `keyboardKey_e`. */
  predicate HasScanKey(s: Scan)
  {
    57 <= s <= 75 || 77 <= s <= 99 || s == 101 || 103 <= s <= 115 || 224 <= s <= 231
  }

  /** `keyboardKey_e`: a character key, or a scan code with a key of its own,
      tagged. */
  predicate IsKey(c: bv32)
  {
    IsCharKey(c) || (c & KeyTag == KeyTag && IsScanCode(KeyToScan(c)) && HasScanKey(KeyToScan(c)))
  }

  type Key = c: bv32 | IsKey(c)

  const KeyUnknown: Key := 0
  const KeyReturn: Key := '\r' as bv32
  const KeyEscape: Key := 0x1B
  const KeyBackspace: Key := 0x08
  const KeyTab: Key := '\t' as bv32
  const KeySpace: Key := ' ' as bv32
  const KeyExclaim: Key := '!' as bv32
  const KeyQuotedbl: Key := '"' as bv32
  const KeyHash: Key := '#' as bv32
  const KeyPercent: Key := '%' as bv32
  const KeyDollar: Key := '$' as bv32
  const KeyAmpersand: Key := '&' as bv32
  const KeyQuote: Key := '\'' as bv32
  const KeyLeftparen: Key := '(' as bv32
  const KeyRightparen: Key := ')' as bv32
  const KeyAsterisk: Key := '*' as bv32
  const KeyPlus: Key := '+' as bv32
  const KeyComma: Key := ',' as bv32
  const KeyMinus: Key := '-' as bv32
  const KeyPeriod: Key := '.' as bv32
  const KeySlash: Key := '/' as bv32
  const Key0: Key := '0' as bv32
  const Key1: Key := '1' as bv32
  const Key2: Key := '2' as bv32
  const Key3: Key := '3' as bv32
  const Key4: Key := '4' as bv32
  const Key5: Key := '5' as bv32
  const Key6: Key := '6' as bv32
  const Key7: Key := '7' as bv32
  const Key8: Key := '8' as bv32
  const Key9: Key := '9' as bv32
  const KeyColon: Key := ':' as bv32
  const KeySemicolon: Key := ';' as bv32
  const KeyLess: Key := '<' as bv32
  const KeyEquals: Key := '=' as bv32
  const KeyGreater: Key := '>' as bv32
  const KeyQuestion: Key := '?' as bv32
  const KeyAt: Key := '@' as bv32
  const KeyLeftbracket: Key := '[' as bv32
  const KeyBackslash: Key := '\\' as bv32
  const KeyRightbracket: Key := ']' as bv32
  const KeyCaret: Key := '^' as bv32
  const KeyUnderscore: Key := '_' as bv32
  const KeyBackquote: Key := '`' as bv32
  const KeyDelete: Key := 0x7F
  const KeyA: Key := 'a' as bv32
  const KeyB: Key := 'b' as bv32
  const KeyC: Key := 'c' as bv32
  const KeyD: Key := 'd' as bv32
  const KeyE: Key := 'e' as bv32
  const KeyF: Key := 'f' as bv32
  const KeyG: Key := 'g' as bv32
  const KeyH: Key := 'h' as bv32
  const KeyI: Key := 'i' as bv32
  const KeyJ: Key := 'j' as bv32
  const KeyK: Key := 'k' as bv32
  const KeyL: Key := 'l' as bv32
  const KeyM: Key := 'm' as bv32
  const KeyN: Key := 'n' as bv32
  const KeyO: Key := 'o' as bv32
  const KeyP: Key := 'p' as bv32
  const KeyQ: Key := 'q' as bv32
  const KeyR: Key := 'r' as bv32
  const KeyS: Key := 's' as bv32
  const KeyT: Key := 't' as bv32
  const KeyU: Key := 'u' as bv32
  const KeyV: Key := 'v' as bv32
  const KeyW: Key := 'w' as bv32
  const KeyX: Key := 'x' as bv32
  const KeyY: Key := 'y' as bv32
  const KeyZ: Key := 'z' as bv32
  const KeyCapslock: Key := ScanToKey(ScanCapslock)
  const KeyF1: Key := ScanToKey(ScanF1)
  const KeyF2: Key := ScanToKey(ScanF2)
  const KeyF3: Key := ScanToKey(ScanF3)
  const KeyF4: Key := ScanToKey(ScanF4)
  const KeyF5: Key := ScanToKey(ScanF5)
  const KeyF6: Key := ScanToKey(ScanF6)
  const KeyF7: Key := ScanToKey(ScanF7)
  const KeyF8: Key := ScanToKey(ScanF8)
  const KeyF9: Key := ScanToKey(ScanF9)
  const KeyF10: Key := ScanToKey(ScanF10)
  const KeyF11: Key := ScanToKey(ScanF11)
  const KeyF12: Key := ScanToKey(ScanF12)
  const KeyPrintscreen: Key := ScanToKey(ScanPrintscreen)
  const KeyScrolllock: Key := ScanToKey(ScanScrolllock)
  const KeyPause: Key := ScanToKey(ScanPause)
  const KeyInsert: Key := ScanToKey(ScanInsert)
  const KeyHome: Key := ScanToKey(ScanHome)
  const KeyPageup: Key := ScanToKey(ScanPageup)
  const KeyEnd: Key := ScanToKey(ScanEnd)
  const KeyPagedown: Key := ScanToKey(ScanPagedown)
  const KeyRight: Key := ScanToKey(ScanRight)
  const KeyLeft: Key := ScanToKey(ScanLeft)
  const KeyDown: Key := ScanToKey(ScanDown)
  const KeyUp: Key := ScanToKey(ScanUp)
  const KeyNumlockclear: Key := ScanToKey(ScanNumlockclear)
  const KeyKpDivide: Key := ScanToKey(ScanKpDivide)
  const KeyKpMultiply: Key := ScanToKey(ScanKpMultiply)
  const KeyKpMinus: Key := ScanToKey(ScanKpMinus)
  const KeyKpPlus: Key := ScanToKey(ScanKpPlus)
  const KeyKpEnter: Key := ScanToKey(ScanKpEnter)
  const KeyKp1: Key := ScanToKey(ScanKp1)
  const KeyKp2: Key := ScanToKey(ScanKp2)
  const KeyKp3: Key := ScanToKey(ScanKp3)
  const KeyKp4: Key := ScanToKey(ScanKp4)
  const KeyKp5: Key := ScanToKey(ScanKp5)
  const KeyKp6: Key := ScanToKey(ScanKp6)
  const KeyKp7: Key := ScanToKey(ScanKp7)
  const KeyKp8: Key := ScanToKey(ScanKp8)
  const KeyKp9: Key := ScanToKey(ScanKp9)
  const KeyKp0: Key := ScanToKey(ScanKp0)
  const KeyKpPeriod: Key := ScanToKey(ScanKpPeriod)
  const KeyApplication: Key := ScanToKey(ScanApplication)
  const KeyKpEquals: Key := ScanToKey(ScanKpEquals)
  const KeyF13: Key := ScanToKey(ScanF13)
  const KeyF14: Key := ScanToKey(ScanF14)
  const KeyF15: Key := ScanToKey(ScanF15)
  const KeyF16: Key := ScanToKey(ScanF16)
  const KeyF17: Key := ScanToKey(ScanF17)
  const KeyF18: Key := ScanToKey(ScanF18)
  const KeyF19: Key := ScanToKey(ScanF19)
  const KeyF20: Key := ScanToKey(ScanF20)
  const KeyF21: Key := ScanToKey(ScanF21)
  const KeyF22: Key := ScanToKey(ScanF22)
  const KeyF23: Key := ScanToKey(ScanF23)
  const KeyF24: Key := ScanToKey(ScanF24)
  const KeyLctrl: Key := ScanToKey(ScanLctrl)
  const KeyLshift: Key := ScanToKey(ScanLshift)
  const KeyLalt: Key := ScanToKey(ScanLalt)
  const KeyLgui: Key := ScanToKey(ScanLgui)
  const KeyRctrl: Key := ScanToKey(ScanRctrl)
  const KeyRshift: Key := ScanToKey(ScanRshift)
  const KeyRalt: Key := ScanToKey(ScanRalt)
  const KeyRgui: Key := ScanToKey(ScanRgui)

  /** Every character key is a 7-bit character. */
  lemma CharKeyBelow128(c: bv32)
    requires IsCharKey(c)
    ensures c < 128
  {
  }

  /** A scan code's key is at least 2^30, so it never collides with a
      character key. */
  lemma ScanKeyNotCharKey(s: Scan, c: bv32)
    requires IsCharKey(c)
    ensures KeyTag <= ScanToKey(s)
    ensures ScanToKey(s) != c
  {
  }

  /** The scan-derived keys are exactly the tagged scan codes that have a
      key of their own, and each recovers its scan code. */
  lemma ScanKeyIsKey(s: Scan)
    ensures IsKey(ScanToKey(s)) <==> HasScanKey(s)
    ensures KeyToScan(ScanToKey(s)) == s
  {
    assert IsScanCode(s);
    ScanToKeyRoundTrip(s);
  }

  /** Known values: the first and last scan-derived keys. */
  lemma ScanKeyKnownValues()
    ensures KeyCapslock == 0x4000_0039
    ensures KeyRgui == 0x4000_00E7
  {
  }

  /** `mouseButton_e`. */
  datatype MouseButton = MouseNone | MouseLeft | MouseRight | MouseMiddle | MouseX1 | MouseX2

  /** A signed 16-bit axis reading. */
  type Int16 = x: int | -0x8000 <= x < 0x8000

  /** `event_t`: one of the five event structures. Positions are the `ivec2`
      fields, written out as coordinate pairs. */
  datatype Event =
    | KeyEvent(scan: Scan, key: Key, pressed: bool)
    | MouseMotion(absX: int, absY: int, relX: int, relY: int)
    | MouseButtonEvent(absX: int, absY: int, button: MouseButton, pressed: bool)
    | PadAxis(axis: bv8, value: Int16)
    | PadButton(padButton: bv8, pressed: bool)
}

=== FILE: json.dfy ===
/** The part of the jsoncpp `Json::Value` interface the level loader uses:
    member and element lookup that answer `null` for what is missing,
    iteration over children, and the `as...` conversions.

    Lookup agrees with jsoncpp on objects, arrays and `null`. Indexing any
    other value by key, or any non-array by position, throws in jsoncpp; the
    model reads `null` there instead.

    The conversions agree with jsoncpp's for `null` (zero or the empty
    string), for numbers read as numbers, and for booleans read as 0 or 1.
    Where jsoncpp throws (an array or object converted to a scalar, an
    out-of-range unsigned conversion) the model returns the conversion's
    default instead. `asString()` of a number or boolean differs: jsoncpp
    returns its text, and the model returns "". */
module Json {

  /** `Json::Value`. Object members are kept in the order given; a lookup
      finds the first member with the key. */
  datatype Value =
    | Null
    | Bool(b: bool)
    | Int(i: int)
    | Real(r: real)
    | Str(s: string)
    | Array(items: seq<Value>)
    | Object(members: seq<(string, Value)>)

  /** `isMember(key)`. */
  predicate IsMember(v: Value, key: string)
  {
    v.Object? && exists k :: 0 <= k < |v.members| && v.members[k].0 == key
  }

  /** `operator[](key)` on a const value. On an object: the first member
      with that key, or `null` when there is none. On `null`: `null`. On any
      other value jsoncpp throws; the model gives `null`. */
  function Get(v: Value, key: string): (r: Value)
    ensures !IsMember(v, key) ==> r == Null
  {
    if v.Object? then Lookup(v.members, key) else Null
  }

  function Lookup(members: seq<(string, Value)>, key: string): (r: Value)
    ensures (forall k :: 0 <= k < |members| ==> members[k].0 != key) ==> r == Null
  {
    if members == [] then Null
    else if members[0].0 == key then members[0].1
    else
      var r := Lookup(members[1..], key);
      assert forall k :: 1 <= k < |members| ==> members[k] == members[1..][k - 1];
      r
  }

  /** A lookup finds the first member with the key. */
  lemma {:induction false} LookupFirst(members: seq<(string, Value)>, key: string, k: nat)
    requires k < |members| && members[k].0 == key
    requires forall i :: 0 <= i < k ==> members[i].0 != key
    ensures Lookup(members, key) == members[k].1
    decreases k
  {
    if k > 0 {
      assert members[0].0 != key;
      LookupFirst(members[1..], key, k - 1);
    }
  }

  /** `operator[](index)` on a const value. On an array: the element, or
      `null` when the index is out of range. On `null`: `null`. On any other
      value jsoncpp throws; the model gives `null`. */
  function At(v: Value, index: nat): (r: Value)
    ensures v.Array? && index < |v.items| ==> r == v.items[index]
    ensures !(v.Array? && index < |v.items|) ==> r == Null
  {
    if v.Array? && index < |v.items| then v.items[index] else Null
  }

  /** What a range-for over a value visits: an array's elements or an
      object's member values, in order; nothing for any other value. */
  function Children(v: Value): (r: seq<Value>)
    ensures v.Array? ==> r == v.items
    ensures v.Object? ==> |r| == |v.members| && forall k :: 0 <= k < |r| ==> r[k] == v.members[k].1
    ensures !v.Array? && !v.Object? ==> r == []
  {
    match v
    case Array(items) => items
    case Object(members) => seq(|members|, k requires 0 <= k < |members| => members[k].1)
    case _ => []
  }

  /** `asString()` on a string or `null`. jsoncpp would give a number's or
      boolean's text; the model gives "". */
  function AsString(v: Value): (s: string)
    ensures v.Str? ==> s == v.s
    ensures !v.Str? ==> s == ""
  {
    if v.Str? then v.s else ""
  }

  /** What `asFloat()` gives for a number: the number itself. */
  predicate FloatOf(v: Value, x: real)
  {
    (v.Real? ==> x == v.r) && (v.Int? ==> x == v.i as real)
  }

  /** `asFloat()`, without the rounding to single precision. */
  function AsFloat(v: Value): (x: real)
    ensures v.Real? ==> x == v.r
    ensures v.Int? ==> x == v.i as real
  {
    match v
    case Int(i) => i as real
    case Real(r) => r
    case Bool(b) => if b then 1.0 else 0.0
    case _ => 0.0
  }

  /** An unsigned conversion into `[0, limit)`: `asUInt()` with limit 2^32,
      `asUInt64()` with limit 2^64. A fraction is truncated; a real is
      accepted when it lies in [0, limit - 1], as jsoncpp's range test does.
      What jsoncpp rejects with an exception reads as 0. */
  function AsUnsigned(v: Value, limit: nat): (n: nat)
    requires limit > 1
    ensures n < limit
    ensures v.Int? && 0 <= v.i < limit ==> n == v.i
    ensures v.Null? ==> n == 0
    ensures v.Real? && 0.0 <= v.r <= (limit - 1) as real ==> n as real <= v.r < n as real + 1.0
    ensures v.Real? && !(0.0 <= v.r <= (limit - 1) as real) ==> n == 0
  {
    match v
    case Int(i) => if 0 <= i < limit then i else 0
    case Real(r) => if 0.0 <= r <= (limit - 1) as real then r.Floor else 0
    case Bool(b) => if b then 1 else 0
    case _ => 0
  }
}

=== FILE: level.dfy ===
/** The level loader of src/level.cpp: it reads a level asset, parses it as
    JSON and walks the tree into polygons, edges and locations.

    Edges of all polygons go into one list in the order they are read; each
    polygon keeps the indices of its own edges, so the polygons' index lists
    are consecutive ranges that together cover the edge list. Floats are
    `real`s, without rounding to single precision. A location's orientation
    is kept as the three Euler angles the JSON gives; the conversion into a
    quaternion is not part of this model. The asset read and the JSON parser
    are parameters. */
module Level {
  import opened Results
  import opened Json
  import Assets

  const Two32: nat := 0x1_0000_0000
  const Two64: nat := 0x1_0000_0000_0000_0000

  /** `size_t`. */
  type U64 = n: nat | n < Two64

  /** `UINT64_MAX`: the back polygon of an edge that is a plain wall. */
  const NoPortal: U64 := Two64 - 1

  /** `Edge`, without the next-vertex and normal caches the loader never
      writes. */
  datatype Edge = Edge(x: real, y: real, upperTex: string, middleTex: string, lowerTex: string, backPoly: U64)

  /** `Polygon`, without the tessellation caches. */
  datatype Polygon = Polygon(edgeIds: seq<nat>, floorHeight: real, ceilHeight: real,
                             floorTex: string, ceilTex: string, r: real, g: real, b: real)

  /** `Location`, with the Euler angles in place of the quaternion. */
  datatype Location = Location(kind: string, entityConfig: string, polygon: U64,
                               px: real, py: real, pz: real, pitch: real, yaw: real, roll: real)

  datatype Level = Level(polygons: seq<Polygon>, edges: seq<Edge>, locations: seq<Location>)

  /** `UnserializeEdge`. */
  function UnserializeEdge(j: Value): (e: Edge)
    ensures !IsMember(j, "backPoly") ==> e.backPoly == NoPortal
    ensures IsMember(j, "backPoly") ==> e.backPoly == AsUnsigned(Get(j, "backPoly"), Two64)
  {
    Edge(AsFloat(At(Get(j, "vertex"), 0)), AsFloat(At(Get(j, "vertex"), 1)),
         AsString(Get(j, "upperTex")), AsString(Get(j, "middleTex")), AsString(Get(j, "lowerTex")),
         if IsMember(j, "backPoly") then AsUnsigned(Get(j, "backPoly"), Two64) else NoPortal)
  }

  /** The JSON a level editor writes for an edge: `backPoly` only for a
      portal. */
  function SerializeEdge(e: Edge): Value
  {
    Object([("vertex", Array([Real(e.x), Real(e.y)])),
            ("upperTex", Str(e.upperTex)), ("middleTex", Str(e.middleTex)), ("lowerTex", Str(e.lowerTex))]
           + (if e.backPoly == NoPortal then [] else [("backPoly", Int(e.backPoly))]))
  }

  /** Every edge is read back from its JSON, including the sentinel of an
      edge without a back polygon. */
  lemma EdgeRoundTrip(e: Edge)
    ensures UnserializeEdge(SerializeEdge(e)) == e
  {
    var j := SerializeEdge(e);
    EdgeFieldsRead(e);
    if e.backPoly != NoPortal {
      LookupFirst(j.members, "backPoly", 4);
    } else {
      assert |j.members| == 4;
    }
  }

  lemma EdgeFieldsRead(e: Edge)
    ensures var j := SerializeEdge(e);
      && Get(j, "vertex") == Array([Real(e.x), Real(e.y)])
      && Get(j, "upperTex") == Str(e.upperTex) && Get(j, "middleTex") == Str(e.middleTex)
      && Get(j, "lowerTex") == Str(e.lowerTex)
  {
    var m := SerializeEdge(e).members;
    LookupFirst(m, "vertex", 0);
    LookupFirst(m, "upperTex", 1);
    LookupFirst(m, "middleTex", 2);
    LookupFirst(m, "lowerTex", 3);
  }

  /** `n` consecutive indices from `start`. */
  function Range(start: nat, n: nat): (r: seq<nat>)
    ensures |r| == n
    ensures forall k :: 0 <= k < n ==> r[k] == start + k
  {
    seq(n, k requires 0 <= k < n => start + k)
  }

  lemma RangeSplit(start: nat, n: nat, m: nat)
    ensures Range(start, n) + Range(start + n, m) == Range(start, n + m)
  {
  }

  /** A brightness channel: the unsigned integer divided by 256. */
  function Channel(v: Value): (c: real)
    ensures 0.0 <= c < Two32 as real / 256.0
    ensures v.Int? && 0 <= v.i < Two32 ==> c * 256.0 == v.i as real
    ensures v.Null? ==> c == 0.0
  {
    AsUnsigned(v, Two32) as real / 256.0
  }

  lemma ChannelKnownValues()
    ensures Channel(Int(128)) == 0.5
    ensures Channel(Int(256)) == 1.0
  {
  }

  /* The loops of `UnserializePolygon` and `UnserializeLevel` are stated over
     a polygon reader given as three functions: the fields of a polygon other
     than its edges, the JSON of its edges, and the edge reader. They are
     instantiated with `PolygonFields`, `EdgeItems` and `UnserializeEdge`;
     the loops' reasoning then never unfolds a JSON lookup. */

  /** What `UnserializePolygon` reads besides the edges; the edge list is
      left empty. */
  function PolygonFields(j: Value): (p: Polygon)
    ensures p.edgeIds == []
  {
    var brightness := Get(j, "brightness");
    Polygon([], AsFloat(Get(j, "floorHeight")), AsFloat(Get(j, "ceilHeight")),
            AsString(Get(j, "floorTex")), AsString(Get(j, "ceilTex")),
            Channel(At(brightness, 0)), Channel(At(brightness, 1)), Channel(At(brightness, 2)))
  }

  /** The JSON of a polygon's edges. */
  function EdgeItems(j: Value): seq<Value>
  {
    Children(Get(j, "edges"))
  }

  /** The edges read from some edge JSONs, in order. */
  function EdgesOf(decode: Value -> Edge, items: seq<Value>): (r: seq<Edge>)
    ensures |r| == |items|
    ensures forall k :: 0 <= k < |items| ==> r[k] == decode(items[k])
  {
    seq(|items|, k requires 0 <= k < |items| => decode(items[k]))
  }

  /** The edge loop of `UnserializePolygon`: each edge records the length of
      the level's edge list, then is appended to it. */
  function AppendEdges(decode: Value -> Edge, items: seq<Value>, edges: seq<Edge>): (r: (seq<nat>, seq<Edge>))
    ensures r.1 == edges + EdgesOf(decode, items)
    ensures r.0 == Range(|edges|, |items|)
    decreases |items|
  {
    if items == [] then ([], edges)
    else
      var id := |edges|;
      var rest := AppendEdges(decode, items[1..], edges + [decode(items[0])]);
      EdgesOfCons(decode, items);
      RangeCons(id, |items|);
      ConcatAssoc(edges, [decode(items[0])], EdgesOf(decode, items[1..]));
      ([id] + rest.0, rest.1)
  }

  lemma EdgesOfCons(decode: Value -> Edge, items: seq<Value>)
    requires items != []
    ensures EdgesOf(decode, items) == [decode(items[0])] + EdgesOf(decode, items[1..])
  {
  }

  lemma RangeCons(start: nat, n: nat)
    requires n > 0
    ensures Range(start, n) == [start] + Range(start + 1, n - 1)
  {
  }

  /** One polygon read by the given reader. */
  function ReadPolygon(fields: Value -> Polygon, edgeItems: Value -> seq<Value>, decode: Value -> Edge,
                       j: Value, edges: seq<Edge>): (r: (Polygon, seq<Edge>))
    ensures r.1 == edges + EdgesOf(decode, edgeItems(j))
    ensures r.0 == fields(j).(edgeIds := Range(|edges|, |edgeItems(j)|))
  {
    var added := AppendEdges(decode, edgeItems(j), edges);
    (fields(j).(edgeIds := added.0), added.1)
  }

  /** `UnserializePolygon`: the polygon's edges are appended to the level's
      list in JSON order, and the polygon records their indices, which are
      the next ones after the edges already read. */
  function UnserializePolygon(j: Value, edges: seq<Edge>): (r: (Polygon, seq<Edge>))
    ensures |r.1| == |edges| + |EdgeItems(j)| && r.1[..|edges|] == edges
    ensures forall k :: 0 <= k < |EdgeItems(j)| ==> r.1[|edges| + k] == UnserializeEdge(EdgeItems(j)[k])
    ensures r.0.edgeIds == Range(|edges|, |EdgeItems(j)|)
    ensures r.0 == PolygonFields(j).(edgeIds := r.0.edgeIds)
  {
    var r := ReadPolygon(PolygonFields, EdgeItems, UnserializeEdge, j, edges);
    assert r.1[..|edges|] == edges;
    r
  }

  /** The edges of a sequence of polygon JSONs, one polygon after another. */
  function AllEdges(edgeItems: Value -> seq<Value>, decode: Value -> Edge, items: seq<Value>): seq<Edge>
  {
    if items == [] then [] else EdgesOf(decode, edgeItems(items[0])) + AllEdges(edgeItems, decode, items[1..])
  }

  lemma ConcatAssoc<T>(a: seq<T>, b: seq<T>, c: seq<T>)
    ensures (a + b) + c == a + (b + c)
  {
  }

  /** The edge indices of a list of polygons, one polygon after another. */
  function EdgeIds(polygons: seq<Polygon>): seq<nat>
  {
    if polygons == [] then [] else polygons[0].edgeIds + EdgeIds(polygons[1..])
  }

  lemma {:induction false} EdgeIdsAppend(polygons: seq<Polygon>, p: Polygon)
    ensures EdgeIds(polygons + [p]) == EdgeIds(polygons) + p.edgeIds
    decreases |polygons|
  {
    if polygons == [] {
      assert EdgeIds([p]) == p.edgeIds + EdgeIds([]);
    } else {
      assert (polygons + [p])[1..] == polygons[1..] + [p];
      EdgeIdsAppend(polygons[1..], p);
    }
  }

  /** The polygon loop of `UnserializeLevel`. */
  function AppendPolygons(fields: Value -> Polygon, edgeItems: Value -> seq<Value>, decode: Value -> Edge,
                          items: seq<Value>, polygons: seq<Polygon>, edges: seq<Edge>): (r: (seq<Polygon>, seq<Edge>))
    ensures |r.0| == |polygons| + |items|
    ensures r.0[..|polygons|] == polygons
    ensures r.1 == edges + AllEdges(edgeItems, decode, items)
    decreases |items|
  {
    if items == [] then (polygons, edges)
    else
      var built := ReadPolygon(fields, edgeItems, decode, items[0], edges);
      var r := AppendPolygons(fields, edgeItems, decode, items[1..], polygons + [built.0], built.1);
      assert r.0[..|polygons|] == r.0[..|polygons| + 1][..|polygons|];
      ConcatAssoc(edges, EdgesOf(decode, edgeItems(items[0])), AllEdges(edgeItems, decode, items[1..]));
      r
  }

  /** Polygon `k` is read from JSON polygon `k`, with one index per JSON
      edge. */
  lemma {:induction false} AppendPolygonsInOrder(fields: Value -> Polygon, edgeItems: Value -> seq<Value>,
                                                 decode: Value -> Edge, items: seq<Value>,
                                                 polygons: seq<Polygon>, edges: seq<Edge>, k: nat)
    requires k < |items|
    ensures var p := AppendPolygons(fields, edgeItems, decode, items, polygons, edges).0[|polygons| + k];
      && p == fields(items[k]).(edgeIds := p.edgeIds)
      && |p.edgeIds| == |edgeItems(items[k])|
    decreases k
  {
    var built := ReadPolygon(fields, edgeItems, decode, items[0], edges);
    var r := AppendPolygons(fields, edgeItems, decode, items[1..], polygons + [built.0], built.1);
    if k == 0 {
      assert r.0[|polygons|] == r.0[..|polygons| + 1][|polygons|];
    } else {
      AppendPolygonsInOrder(fields, edgeItems, decode, items[1..], polygons + [built.0], built.1, k - 1);
      assert items[1..][k - 1] == items[k];
    }
  }

  /** Polygon by polygon, the new indices continue the old ones without gap
      or overlap. */
  lemma {:induction false} AppendPolygonsContiguous(fields: Value -> Polygon, edgeItems: Value -> seq<Value>,
                                                    decode: Value -> Edge, items: seq<Value>,
                                                    polygons: seq<Polygon>, edges: seq<Edge>)
    requires EdgeIds(polygons) == Range(0, |edges|)
    ensures var r := AppendPolygons(fields, edgeItems, decode, items, polygons, edges);
      EdgeIds(r.0) == Range(0, |r.1|)
    decreases |items|
  {
    if items != [] {
      var built := ReadPolygon(fields, edgeItems, decode, items[0], edges);
      EdgeIdsAppend(polygons, built.0);
      RangeSplit(0, |edges|, |built.1| - |edges|);
      AppendPolygonsContiguous(fields, edgeItems, decode, items[1..], polygons + [built.0], built.1);
    }
  }

  /** `UnserializeLocation`: each field is converted from its member as
      jsoncpp does, so a missing member reads as the empty string, 0 or 0.0,
      and a missing position or rotation is the origin or no rotation. */
  function UnserializeLocation(j: Value): (l: Location)
    ensures Get(j, "type").Str? ==> l.kind == Get(j, "type").s
    ensures Get(j, "entityConfig").Str? ==> l.entityConfig == Get(j, "entityConfig").s
    ensures Get(j, "polygon").Int? && 0 <= Get(j, "polygon").i < Two64 ==> l.polygon == Get(j, "polygon").i
    ensures !IsMember(j, "type") ==> l.kind == ""
    ensures !IsMember(j, "entityConfig") ==> l.entityConfig == ""
    ensures !IsMember(j, "polygon") ==> l.polygon == 0
    ensures !IsMember(j, "position") ==> l.px == 0.0 && l.py == 0.0 && l.pz == 0.0
    ensures !IsMember(j, "rotation") ==> l.pitch == 0.0 && l.yaw == 0.0 && l.roll == 0.0
    ensures FloatOf(At(Get(j, "position"), 0), l.px) && FloatOf(At(Get(j, "position"), 1), l.py)
    ensures FloatOf(At(Get(j, "position"), 2), l.pz)
    ensures FloatOf(At(Get(j, "rotation"), 0), l.pitch) && FloatOf(At(Get(j, "rotation"), 1), l.yaw)
    ensures FloatOf(At(Get(j, "rotation"), 2), l.roll)
  {
    var position := Get(j, "position");
    var rotation := Get(j, "rotation");
    Location(AsString(Get(j, "type")), AsString(Get(j, "entityConfig")), AsUnsigned(Get(j, "polygon"), Two64),
             AsFloat(At(position, 0)), AsFloat(At(position, 1)), AsFloat(At(position, 2)),
             AsFloat(At(rotation, 0)), AsFloat(At(rotation, 1)), AsFloat(At(rotation, 2)))
  }

  function SerializeLocation(l: Location): Value
  {
    Object([("type", Str(l.kind)), ("entityConfig", Str(l.entityConfig)), ("polygon", Int(l.polygon)),
            ("position", Array([Real(l.px), Real(l.py), Real(l.pz)])),
            ("rotation", Array([Real(l.pitch), Real(l.yaw), Real(l.roll)]))])
  }

  /** Every location is read back from its JSON. */
  lemma LocationRoundTrip(l: Location)
    ensures UnserializeLocation(SerializeLocation(l)) == l
  {
    LocationHeaderRead(l);
    LocationVectorsRead(l);
  }

  lemma LocationHeaderRead(l: Location)
    ensures var j := SerializeLocation(l);
      && Get(j, "type") == Str(l.kind) && Get(j, "entityConfig") == Str(l.entityConfig)
      && Get(j, "polygon") == Int(l.polygon)
  {
    var m := SerializeLocation(l).members;
    LookupFirst(m, "type", 0);
    LookupFirst(m, "entityConfig", 1);
    LookupFirst(m, "polygon", 2);
  }

  lemma LocationVectorsRead(l: Location)
    ensures var j := SerializeLocation(l);
      && Get(j, "position") == Array([Real(l.px), Real(l.py), Real(l.pz)])
      && Get(j, "rotation") == Array([Real(l.pitch), Real(l.yaw), Real(l.roll)])
  {
    var m := SerializeLocation(l).members;
    LookupFirst(m, "position", 3);
    LookupFirst(m, "rotation", 4);
  }

  /** `UnserializeLevel`: polygons first, then locations, each in JSON
      order. Polygon `k` holds the fields of JSON polygon `k` and one edge
      index per JSON edge; the edge list holds the edges of every polygon in
      turn, and the polygons' index lists, one after another, count through
      it from 0 without gap or repeat. */
  function UnserializeLevel(j: Value): (level: Level)
    ensures |level.polygons| == |Children(Get(j, "polygons"))|
    ensures forall k :: 0 <= k < |level.polygons| ==>
      var json := Children(Get(j, "polygons"))[k];
      && level.polygons[k] == PolygonFields(json).(edgeIds := level.polygons[k].edgeIds)
      && |level.polygons[k].edgeIds| == |EdgeItems(json)|
    ensures level.edges == AllEdges(EdgeItems, UnserializeEdge, Children(Get(j, "polygons")))
    ensures EdgeIds(level.polygons) == Range(0, |level.edges|)
    ensures |level.locations| == |Children(Get(j, "locations"))|
    ensures forall k :: 0 <= k < |level.locations| ==>
      level.locations[k] == UnserializeLocation(Children(Get(j, "locations"))[k])
  {
    var polygons := Children(Get(j, "polygons"));
    var locations := Children(Get(j, "locations"));
    var built := AppendPolygons(PolygonFields, EdgeItems, UnserializeEdge, polygons, [], []);
    AppendPolygonsContiguous(PolygonFields, EdgeItems, UnserializeEdge, polygons, [], []);
    forall k | 0 <= k < |polygons|
      ensures built.0[k] == PolygonFields(polygons[k]).(edgeIds := built.0[k].edgeIds)
      ensures |built.0[k].edgeIds| == |EdgeItems(polygons[k])|
    {
      AppendPolygonsInOrder(PolygonFields, EdgeItems, UnserializeEdge, polygons, [], [], k);
    }
    assert [] + AllEdges(EdgeItems, UnserializeEdge, polygons) == AllEdges(EdgeItems, UnserializeEdge, polygons);
    Level(built.0, built.1, seq(|locations|, k requires 0 <= k < |locations| => UnserializeLocation(locations[k])))
  }

  /** `loadLevelError_e`. */
  datatype LoadLevelError = MissingAsset | JsonParseError

  /** `LoadLevelAsset`: read the asset, parse it, then unserialize it. A
      failed read is reported before any parsing, and a failed parse before
      any unserializing. */
  function LoadLevelAsset(a: Assets.Locations, path: string, read: string -> Option<Assets.Bytes>,
                          parse: Assets.Bytes -> Option<Value>): (r: Result<Level, LoadLevelError>)
    ensures Assets.ReadToBuffer(a, path, read).Err? <==> r == Err(MissingAsset)
    ensures r == Err(JsonParseError) <==>
      Assets.ReadToBuffer(a, path, read).Ok? && parse(Assets.ReadToBuffer(a, path, read).value).None?
    ensures r.Ok? ==> exists data :: (Assets.ReadToBuffer(a, path, read) == Ok(data) &&
      parse(data).Some? && r.value == UnserializeLevel(parse(data).value))
  {
    match Assets.ReadToBuffer(a, path, read)
    case Err(_) => Err(MissingAsset)
    case Ok(data) =>
      match parse(data)
      case None => Err(JsonParseError)
      case Some(root) => Ok(UnserializeLevel(root))
  }

  /** A path the asset guard refuses never reaches the parser. */
  lemma EscapingPathIsMissing(a: Assets.Locations, path: string, read: string -> Option<Assets.Bytes>,
                              parse: Assets.Bytes -> Option<Value>)
    requires Assets.EscapesLocation(path)
    ensures LoadLevelAsset(a, path, read, parse) == Err(MissingAsset)
  {
  }
}

=== FILE: random.dfy ===
/** The integer draws of rock3d/random.cpp: `U32`, `U64` and the rejection
    sampling of `UniformU32` and `UniformU64`.

    Both uniform functions take a generator argument but draw from the global
    generator `g_cRandom` (through `U64()`), so the model takes the global
    state and has no generator argument. Their retry loop has no bound; it is
    given `fuel`, and running out of it is a separate outcome. Unsigned
    integers are `nat`s below their modulus, and the wrap-around of
    `0 - bound` and the truncation of a 64-bit draw into a `uint32_t` are
    written out. */
module Random {
  import opened Xoshiro

  const Two32: nat := 0x1_0000_0000
  const Two64: nat := 0x1_0000_0000_0000_0000

  /** The output of the call that starts from `st`, as a number. */
  function Word(st: State): (w: nat)
    ensures w < Two64
  {
    Generate(st).output as int
  }

  /** The state after the call that starts from `st`. */
  function Next(st: State): State
  {
    Generate(st).next
  }

  /* The retry loop below is stated over a generator given as two functions,
     its output and its successor, and instantiated with `Word` and `Next`.
     The loop's reasoning then never unfolds the 64-bit arithmetic of a
     draw. */

  /** The state of a generator after `n` calls. */
  function Nth(next: State -> State, st: State, n: nat): State
    decreases n
  {
    if n == 0 then st else Nth(next, next(st), n - 1)
  }

  /** The draw made by the call that starts from `st`, reduced modulo `m`:
      `m` is 2^32 when the 64-bit output lands in a `uint32_t`, 2^64 when it
      is kept whole. */
  function DrawAt(out: State -> nat, m: nat, st: State): nat
    requires m == Two32 || m == Two64
  {
    out(st) % m
  }

  /** A value and the generator state after drawing it. */
  datatype Draw = Draw(value: nat, next: State)

  /** `U32(cRNG)`: one call of the generator, truncated to its low 32 bits. */
  function U32(st: State): (r: Draw)
    ensures r.value < Two32
    ensures (Word(st) - r.value) % Two32 == 0
    ensures r.next == Nth(Next, st, 1)
  {
    Draw(Word(st) % Two32, Next(st))
  }

  /** `U64(cRNG)`: one call of the generator, whole. */
  function U64(st: State): (r: Draw)
    ensures r.value == Word(st)
    ensures r.next == Nth(Next, st, 1)
  {
    ModUnique(Word(st), Two64, 0, Word(st));
    Draw(Word(st) % Two64, Next(st))
  }

  lemma MulAtLeast(x: int, b: int)
    requires x >= 1 && b > 0
    ensures x * b >= b
  {
  }

  /** Euclidean division is unique: a quotient and an in-range remainder that
      rebuild `a` are the ones `%` gives. */
  lemma ModUnique(a: int, b: int, q: int, r: int)
    requires b > 0 && 0 <= r < b && a == q * b + r
    ensures a % b == r
  {
    var q', r' := a / b, a % b;
    assert a == q' * b + r';
    assert (q - q') * b == r' - r;
    if q > q' {
      MulAtLeast(q - q', b);
    } else if q < q' {
      MulAtLeast(q' - q, b);
    }
  }

  lemma ModOfMultiple(q: int, b: int)
    requires b > 0
    ensures (q * b) % b == 0
  {
    ModUnique(q * b, b, q, 0);
  }

  /** The rejection threshold `(0 - bound) % bound`, with the subtraction
      wrapping modulo `m`. It is `m mod bound`, so the accepted draws
      `[threshold, m)` number a multiple of `bound`. */
  function Threshold(m: nat, bound: nat): (t: nat)
    requires 2 <= bound < m
    ensures t == m % bound
    ensures t < bound
    ensures (m - t) % bound == 0
  {
    var wrapped := (0 - bound) % m;
    assert wrapped == m - bound by {
      ModUnique(0 - bound, m, -1, m - bound);
    }
    var q := m / bound;
    assert m == q * bound + m % bound;
    assert m - bound == (q - 1) * bound + m % bound;
    ModUnique(m - bound, bound, q - 1, m % bound);
    ModOfMultiple(q, bound);
    wrapped % bound
  }

  /** How a uniform draw ends: with a value after `draws` calls of the
      generator, or with the fuel spent and every draw rejected. */
  datatype Outcome = Drawn(value: nat, next: State, draws: nat) | OutOfFuel

  /** The retry loop: draw, accept the first draw at or above `t`, and
      return it reduced modulo `bound`. */
  function Sample(out: State -> nat, next: State -> State, m: nat, st: State, bound: nat, t: nat, fuel: nat): (r: Outcome)
    requires m == Two32 || m == Two64
    requires 0 < bound
    ensures r.Drawn? ==> r.value < bound && 1 <= r.draws <= fuel
    ensures r.Drawn? ==> r.next == Nth(next, st, r.draws)
    decreases fuel
  {
    if fuel == 0 then OutOfFuel
    else
      var res := DrawAt(out, m, st);
      if res >= t then Drawn(res % bound, next(st), 1)
      else
        match Sample(out, next, m, next(st), bound, t, fuel - 1)
        case Drawn(v, after, d) => Drawn(v, after, d + 1)
        case OutOfFuel => OutOfFuel
  }

  /** A draw is accepted exactly when it is at or above the threshold: the
      value returned is the first such draw, reduced modulo `bound`, and
      every draw before it was below the threshold. */
  lemma {:induction false} SampleAcceptsFirst(out: State -> nat, next: State -> State, m: nat, st: State,
                                              bound: nat, t: nat, fuel: nat)
    requires m == Two32 || m == Two64
    requires 0 < bound
    ensures var r := Sample(out, next, m, st, bound, t, fuel);
      r.Drawn? ==>
        && DrawAt(out, m, Nth(next, st, r.draws - 1)) >= t
        && r.value == DrawAt(out, m, Nth(next, st, r.draws - 1)) % bound
        && (forall j :: 0 <= j < r.draws - 1 ==> DrawAt(out, m, Nth(next, st, j)) < t)
    decreases fuel
  {
    var r := Sample(out, next, m, st, bound, t, fuel);
    if fuel > 0 && DrawAt(out, m, st) < t {
      SampleAcceptsFirst(out, next, m, next(st), bound, t, fuel - 1);
      var rest := Sample(out, next, m, next(st), bound, t, fuel - 1);
      if rest.Drawn? {
        assert r.draws == rest.draws + 1;
        assert Nth(next, st, r.draws - 1) == Nth(next, next(st), rest.draws - 1);
        forall j | 0 <= j < r.draws - 1
          ensures DrawAt(out, m, Nth(next, st, j)) < t
        {
          if j > 0 {
            assert Nth(next, st, j) == Nth(next, next(st), j - 1);
          }
        }
      }
    }
  }

  /** The loop runs out of fuel exactly when every draw it may make is
      rejected. */
  lemma {:induction false} SampleOutOfFuel(out: State -> nat, next: State -> State, m: nat, st: State,
                                           bound: nat, t: nat, fuel: nat)
    requires m == Two32 || m == Two64
    requires 0 < bound
    ensures Sample(out, next, m, st, bound, t, fuel).OutOfFuel?
        <==> (forall j :: 0 <= j < fuel ==> DrawAt(out, m, Nth(next, st, j)) < t)
    decreases fuel
  {
    if fuel > 0 {
      SampleOutOfFuel(out, next, m, next(st), bound, t, fuel - 1);
      if DrawAt(out, m, st) < t {
        forall j | 1 <= j < fuel
          ensures Nth(next, st, j) == Nth(next, next(st), j - 1)
        {
        }
        if forall j :: 0 <= j < fuel - 1 ==> DrawAt(out, m, Nth(next, next(st), j)) < t {
          forall j | 0 <= j < fuel
            ensures DrawAt(out, m, Nth(next, st, j)) < t
          {
            if j > 0 {
              assert Nth(next, st, j) == Nth(next, next(st), j - 1);
            }
          }
        } else {
          var j :| 0 <= j < fuel - 1 && DrawAt(out, m, Nth(next, next(st), j)) >= t;
          assert Nth(next, st, j + 1) == Nth(next, next(st), j);
          assert DrawAt(out, m, Nth(next, st, j + 1)) >= t;
          assert !Sample(out, next, m, next(st), bound, t, fuel - 1).OutOfFuel?;
          assert !Sample(out, next, m, st, bound, t, fuel).OutOfFuel?;
        }
      } else {
        SampleHead(out, next, m, st, bound, t, fuel);
        assert Nth(next, st, 0) == st;
      }
    }
  }

  /** A first draw at or above the threshold is accepted at once. */
  lemma SampleHead(out: State -> nat, next: State -> State, m: nat, st: State, bound: nat, t: nat, fuel: nat)
    requires m == Two32 || m == Two64
    requires 0 < bound && 0 < fuel && DrawAt(out, m, st) >= t
    ensures Sample(out, next, m, st, bound, t, fuel) == Drawn(DrawAt(out, m, st) % bound, next(st), 1)
  {
  }

  /** What a uniform draw of modulus `m` must produce, stated without the
      loop: bounds 0 and 1 give 0 without drawing; otherwise the outcome is
      the first of the next `fuel` draws at or above `m mod bound`, reduced
      modulo `bound`, or running out of fuel when there is none. */
  predicate UniformSpec(out: State -> nat, next: State -> State, m: nat, st: State, bound: nat, fuel: nat, r: Outcome)
    requires m == Two32 || m == Two64
  {
    if bound < 2 then r == Drawn(0, st, 0)
    else
      var t := m % bound;
      match r
      case OutOfFuel =>
        forall j :: 0 <= j < fuel ==> DrawAt(out, m, Nth(next, st, j)) < t
      case Drawn(v, after, d) =>
        && 1 <= d <= fuel
        && after == Nth(next, st, d)
        && DrawAt(out, m, Nth(next, st, d - 1)) >= t
        && v == DrawAt(out, m, Nth(next, st, d - 1)) % bound
        && (forall j :: 0 <= j < d - 1 ==> DrawAt(out, m, Nth(next, st, j)) < t)
  }

  /** The shared body of `UniformU32` and `UniformU64` for modulus `m`. */
  function Uniform(out: State -> nat, next: State -> State, m: nat, st: State, bound: nat, fuel: nat): (r: Outcome)
    requires m == Two32 || m == Two64
    requires bound < m
    ensures UniformSpec(out, next, m, st, bound, fuel, r)
    ensures r.Drawn? ==> r.value < bound || bound < 2
  {
    if bound < 2 then Drawn(0, st, 0)
    else
      var t := Threshold(m, bound);
      SampleAcceptsFirst(out, next, m, st, bound, t, fuel);
      SampleOutOfFuel(out, next, m, st, bound, t, fuel);
      Sample(out, next, m, st, bound, t, fuel)
  }

  /** `UniformU32(cRNG, bound)`: 64-bit draws truncated to 32 bits. */
  function UniformU32(global: State, bound: nat, fuel: nat): (r: Outcome)
    requires bound < Two32
    ensures UniformSpec(Word, Next, Two32, global, bound, fuel, r)
    ensures r.Drawn? ==> r.value < bound || bound < 2
  {
    Uniform(Word, Next, Two32, global, bound, fuel)
  }

  /** `UniformU64(cRNG, bound)`. */
  function UniformU64(global: State, bound: nat, fuel: nat): (r: Outcome)
    requires bound < Two64
    ensures UniformSpec(Word, Next, Two64, global, bound, fuel, r)
    ensures r.Drawn? ==> r.value < bound || bound < 2
  {
    Uniform(Word, Next, Two64, global, bound, fuel)
  }

  /** Fuel only bounds the loop: once a draw is accepted, more fuel gives the
      same outcome. */
  lemma {:induction false} SampleFuelMonotone(out: State -> nat, next: State -> State, m: nat, st: State,
                                              bound: nat, t: nat, fuel: nat, more: nat)
    requires m == Two32 || m == Two64
    requires 0 < bound && fuel <= more
    requires Sample(out, next, m, st, bound, t, fuel).Drawn?
    ensures Sample(out, next, m, st, bound, t, more) == Sample(out, next, m, st, bound, t, fuel)
    decreases fuel
  {
    if DrawAt(out, m, st) < t {
      SampleFuelMonotone(out, next, m, next(st), bound, t, fuel - 1, more - 1);
    }
  }
}

=== FILE: render.dfy ===
/** The wall emitter of rock3d/r3d/render.cpp: `AddWall` looks the wall's
    texture up in the atlas and appends one quad, four vertices, to the wall
    vertex buffer, each carrying its position, the texture's place in the
    atlas, its texture coordinates and a clamped brightness.

    Floats are reals. The wall length (`glm::length`) and the "fake
    contrast" term (`glm::cos(2 * glm::atan(dy, dx)) * -16`) are kept
    uninterpreted, as the fields of a `Geometry` parameter. */
module Render {
  import opened Results
  import Textures

  datatype Vec2 = Vec2(x: real, y: real)
  datatype Vec3 = Vec3(x: real, y: real, z: real)
  datatype Vec4 = Vec4(x: real, y: real, z: real, w: real)

  /** `wallVert_s`. */
  datatype WallVert = WallVert(position: Vec3, atlasInfo: Vec4, texCoord: Vec2, bright: Vec3)

  /** The float functions the emitter calls: the distance between the two
      ends, and the brightness offset that depends on the wall's direction. */
  datatype Geometry = Geometry(length: (Vec2, Vec2) -> real, contrast: (Vec2, Vec2) -> real)

  /** `RenderContext`: the wall vertex buffer and the texture store, which
      may be absent (`m_pTextures` is a possibly null pointer). */
  datatype Context = Context(wallVerts: seq<WallVert>, textures: Option<Textures.Registry>)

  predicate Valid(ctx: Context)
  {
    ctx.textures.Some? ==> Textures.Valid(ctx.textures.value)
  }

  /** A context as constructed: no vertices, and no texture store, since
      nothing in `RenderContext` ever assigns `m_pTextures`. */
  const NewContext := Context([], None)

  /** `glm::clamp(x, 0.0f, 1.0f)`. */
  function Clamp01(x: real): (c: real)
    ensures 0.0 <= c <= 1.0
    ensures 0.0 <= x <= 1.0 ==> c == x
    ensures x < 0.0 ==> c == 0.0
    ensures x > 1.0 ==> c == 1.0
  {
    if x < 0.0 then 0.0 else if x > 1.0 then 1.0 else x
  }

  /** Clamping keeps order and is idempotent. */
  lemma ClampMonotone(x: real, y: real)
    requires x <= y
    ensures Clamp01(x) <= Clamp01(y)
    ensures Clamp01(Clamp01(x)) == Clamp01(x)
  {
  }

  /** A float division `a / b`. For `b == 0` the float result is an infinity
      or NaN, which a real cannot hold; the model gives 0 there. */
  function Ratio(a: real, b: real): (q: real)
    ensures b != 0.0 ==> q * b == a
    ensures b == 0.0 ==> q == 0.0
  {
    if b == 0.0 then 0.0 else a / b
  }

  /** The brightness of a wall: each channel of `bright` (on a 0 to 256
      scale) plus the contrast offset, scaled into [0, 1] and clamped there. */
  function Brightness(bright: Vec3, offset: real): (b: Vec3)
    ensures 0.0 <= b.x <= 1.0 && 0.0 <= b.y <= 1.0 && 0.0 <= b.z <= 1.0
    ensures -offset <= bright.x <= 256.0 - offset ==> b.x * 256.0 == bright.x + offset
    ensures -offset <= bright.y <= 256.0 - offset ==> b.y * 256.0 == bright.y + offset
    ensures -offset <= bright.z <= 256.0 - offset ==> b.z * 256.0 == bright.z + offset
    ensures bright.x + offset <= 0.0 ==> b.x == 0.0
    ensures bright.x + offset >= 256.0 ==> b.x == 1.0
    ensures bright.y + offset <= 0.0 ==> b.y == 0.0
    ensures bright.y + offset >= 256.0 ==> b.y == 1.0
    ensures bright.z + offset <= 0.0 ==> b.z == 0.0
    ensures bright.z + offset >= 256.0 ==> b.z == 1.0
  {
    Vec3(Clamp01((bright.x + offset) / 256.0), Clamp01((bright.y + offset) / 256.0),
         Clamp01((bright.z + offset) / 256.0))
  }

  /** The four vertices of a wall from `one` to `two` between heights `z1`
      and `z2`, in the order lower-left, lower-right, upper-right,
      upper-left. All four carry the texture's atlas corner and span and one
      brightness. The texture coordinates run from 0 at `one` to the wall
      length in texture widths at `two`, and from 0 at the top to the height
      in texture heights at the bottom, so the texture repeats once per
      `pixelW` units along the wall and once per `pixelH` units up it. */
  function Quad(info: Textures.TexInfo, geo: Geometry, one: Vec2, two: Vec2, z1: real, z2: real,
                bright: Vec3): (q: seq<WallVert>)
    ensures |q| == 4
    ensures q[0].position == Vec3(one.x, one.y, z1) && q[1].position == Vec3(two.x, two.y, z1)
    ensures q[2].position == Vec3(two.x, two.y, z2) && q[3].position == Vec3(one.x, one.y, z2)
    ensures forall k :: 0 <= k < 4 ==>
      q[k].atlasInfo == Vec4(info.minU, info.minV, info.maxU - info.minU, info.maxV - info.minV)
    ensures forall k :: 0 <= k < 4 ==> q[k].bright == Brightness(bright, geo.contrast(one, two))
    ensures q[0].texCoord == Vec2(0.0, q[1].texCoord.y) && q[2].texCoord == Vec2(q[1].texCoord.x, 0.0)
    ensures q[3].texCoord == Vec2(0.0, 0.0)
    ensures info.pixelW != 0 ==> q[1].texCoord.x * info.pixelW as real == geo.length(one, two)
    ensures info.pixelH != 0 ==> q[1].texCoord.y * info.pixelH as real == z2 - z1
  {
    var atlas := Vec4(info.minU, info.minV, info.maxU - info.minU, info.maxV - info.minV);
    var ut2 := Ratio(geo.length(one, two), info.pixelW as real);
    var vt2 := Ratio(z2 - z1, info.pixelH as real);
    var b := Brightness(bright, geo.contrast(one, two));
    [WallVert(Vec3(one.x, one.y, z1), atlas, Vec2(0.0, vt2), b),
     WallVert(Vec3(two.x, two.y, z1), atlas, Vec2(ut2, vt2), b),
     WallVert(Vec3(two.x, two.y, z2), atlas, Vec2(ut2, 0.0), b),
     WallVert(Vec3(one.x, one.y, z2), atlas, Vec2(0.0, 0.0), b)]
  }

  /** What `AddWall` returns, and the context after it. `None` stands for
      reaching the end of the function without a `return`. */
  datatype Wall = Wall(result: Option<bool>, context: Context)

  /** `AddWall` as written: with no texture store, or a texture name the
      store does not know, it returns false and appends nothing; otherwise it
      appends the quad and then ends without returning a value. */
  function AddWallAsWritten(ctx: Context, geo: Geometry, one: Vec2, two: Vec2, z1: real, z2: real,
                            texture: string, bright: Vec3): (w: Wall)
    requires Valid(ctx)
    ensures Valid(w.context)
    ensures w.result.Some? ==> w == Wall(Some(false), ctx)
    ensures w.result == Some(false) <==>
      ctx.textures.None? || Textures.FindByName(ctx.textures.value, texture).None?
    ensures w.result.None? ==> |w.context.wallVerts| == |ctx.wallVerts| + 4
  {
    if ctx.textures.None? then Wall(Some(false), ctx)
    else
      match Textures.FindByName(ctx.textures.value, texture)
      case None => Wall(Some(false), ctx)
      case Some(info) =>
        Wall(None, ctx.(wallVerts := ctx.wallVerts + Quad(info, geo, one, two, z1, z2, bright)))
  }

  /** A successful call as written hands its caller no value at all. */
  lemma AddWallAsWrittenReturnsNothing(ctx: Context, geo: Geometry, one: Vec2, two: Vec2, z1: real, z2: real,
                                       texture: string, bright: Vec3)
    requires Valid(ctx) && ctx.textures.Some? && Textures.FindByName(ctx.textures.value, texture).Some?
    ensures AddWallAsWritten(ctx, geo, one, two, z1, z2, texture, bright).result.None?
  {
  }

  /** `AddWall` corrected: as written, but reporting true once the quad is
      appended. Earlier vertices are untouched and the texture store does
      not change. */
  function AddWall(ctx: Context, geo: Geometry, one: Vec2, two: Vec2, z1: real, z2: real,
                   texture: string, bright: Vec3): (w: Wall)
    requires Valid(ctx)
    ensures Valid(w.context) && w.context.textures == ctx.textures
    ensures w.result.Some?
    ensures w.result == Some(false) <==>
      ctx.textures.None? || Textures.FindByName(ctx.textures.value, texture).None?
    ensures w.result == Some(false) ==> w.context == ctx
    ensures w.result == Some(true) ==>
      && |w.context.wallVerts| == |ctx.wallVerts| + 4
      && w.context.wallVerts[..|ctx.wallVerts|] == ctx.wallVerts
      && w.context.wallVerts[|ctx.wallVerts|..] ==
           Quad(Textures.FindByName(ctx.textures.value, texture).value, geo, one, two, z1, z2, bright)
  {
    var w := AddWallAsWritten(ctx, geo, one, two, z1, z2, texture, bright);
    if w.result.None? then Wall(Some(true), w.context) else w
  }

  /** The corrected emitter appends exactly what the code as written
      appends. */
  lemma AddWallAppendsAsWritten(ctx: Context, geo: Geometry, one: Vec2, two: Vec2, z1: real, z2: real,
                                texture: string, bright: Vec3)
    requires Valid(ctx)
    ensures AddWall(ctx, geo, one, two, z1, z2, texture, bright).context ==
            AddWallAsWritten(ctx, geo, one, two, z1, z2, texture, bright).context
  {
  }

  /** A context as constructed never draws a wall. */
  lemma NewContextDrawsNothing(geo: Geometry, one: Vec2, two: Vec2, z1: real, z2: real,
                               texture: string, bright: Vec3)
    ensures AddWall(NewContext, geo, one, two, z1, z2, texture, bright) == Wall(Some(false), NewContext)
  {
  }

  /** Walls are appended in call order: after two successful calls the
      first wall's quad sits before the second's. */
  lemma TwoWallsInOrder(ctx: Context, geo: Geometry, one: Vec2, two: Vec2, z1: real, z2: real,
                        texture: string, bright: Vec3,
                        one': Vec2, two': Vec2, z1': real, z2': real, texture': string, bright': Vec3)
    requires Valid(ctx)
    requires AddWall(ctx, geo, one, two, z1, z2, texture, bright).result == Some(true)
    requires Textures.FindByName(ctx.textures.value, texture').Some?
    ensures var c1 := AddWall(ctx, geo, one, two, z1, z2, texture, bright).context;
      var w2 := AddWall(c1, geo, one', two', z1', z2', texture', bright');
      var n := |ctx.wallVerts|;
      var reg := ctx.textures.value;
      && w2.result == Some(true)
      && |w2.context.wallVerts| == n + 8
      && w2.context.wallVerts[..n] == ctx.wallVerts
      && w2.context.wallVerts[n..n + 4] == Quad(Textures.FindByName(reg, texture).value, geo, one, two, z1, z2, bright)
      && w2.context.wallVerts[n + 4..] == Quad(Textures.FindByName(reg, texture').value, geo, one', two', z1', z2', bright')
  {
    var c1 := AddWall(ctx, geo, one, two, z1, z2, texture, bright).context;
    var c2 := AddWall(c1, geo, one', two', z1', z2', texture', bright').context;
    var n := |ctx.wallVerts|;
    assert c2.wallVerts[..n + 4] == c1.wallVerts;
    assert c2.wallVerts[n..n + 4] == c1.wallVerts[n..];
    assert c2.wallVerts[..n] == c1.wallVerts[..n];
  }

  /** On an atlas baked by the corrected `BakeAtlas`, a wall's texture
      coordinate span times its atlas span covers exactly the wall's length
      in atlas texels: one texel per unit of length. */
  lemma WallOnBakedAtlas(r: Textures.Registry, packer: Textures.Packer, geo: Geometry, one: Vec2, two: Vec2,
                         z1: real, z2: real, texture: string, bright: Vec3)
    requires Textures.Valid(r) && packer.fits(Textures.Rects(r))
    requires Textures.FindByName(r, texture).Some?
    requires r.textures[Textures.FindByName(r, texture).value.id].image.width > 0
    ensures var baked := Textures.BakeAtlas(r, packer).registry;
      var w := AddWall(Context([], Some(baked)), geo, one, two, z1, z2, texture, bright);
      && w.result == Some(true)
      && w.context.wallVerts[1].texCoord.x * w.context.wallVerts[1].atlasInfo.z * Textures.AtlasSize as real
         == geo.length(one, two)
  {
    var baked := Textures.BakeAtlas(r, packer).registry;
    var id := Textures.FindByName(r, texture).value.id;
    Textures.BakedSpan(r, packer, id);
    var info := Textures.FindByName(baked, texture).value;
    assert info == baked.textures[id].info;
    QuadSpan(info, geo, one, two, z1, z2, bright);
  }

  /** When a texture's atlas span is its pixel width over the atlas size,
      the quad's u span covers the wall's length in atlas texels. */
  lemma QuadSpan(info: Textures.TexInfo, geo: Geometry, one: Vec2, two: Vec2, z1: real, z2: real, bright: Vec3)
    requires info.pixelW != 0 && (info.maxU - info.minU) * Textures.AtlasSize as real == info.pixelW as real
    ensures var q := Quad(info, geo, one, two, z1, z2, bright);
      q[1].texCoord.x * q[1].atlasInfo.z * Textures.AtlasSize as real == geo.length(one, two)
  {
    var q := Quad(info, geo, one, two, z1, z2, bright);
    var span := info.maxU - info.minU;
    var u := q[1].texCoord.x;
    assert q[1].atlasInfo.z == span;
    assert u * span * Textures.AtlasSize as real == u * (span * Textures.AtlasSize as real);
  }
}

=== FILE: results.dfy ===
/** Option and Result values shared by every module of the model.
    They stand in for the engine's null pointers and `nonstd::expected` results. */
module Results {

  datatype Option<+T> = None | Some(value: T)

  datatype Result<+T, +E> = Ok(value: T) | Err(error: E)
}

=== FILE: textures.dfy ===
/** The texture registry of rock3d/r3d/textures.cpp: textures are numbered in
    the order they are added, a name table maps each asset path to the newest
    texture added under it, and baking the atlas gives every texture its place
    on one 2048 by 2048 canvas.

    The asset read, the image decoder (`bimg::imageParse`) and the rectangle
    packer (`stbrp_pack_rects`) are parameters. Only the width and height of a
    decoded image are kept. */
module Textures {
  import opened Results
  import Assets

  /** `ATLAS_SIZE`. */
  const AtlasSize: nat := 2048

  /** `texInfo_s`. A new texture's size and atlas corners are zero. */
  datatype TexInfo = TexInfo(id: nat, name: string, pixelW: int, pixelH: int,
                             minU: real, minV: real, maxU: real, maxV: real)

  /** What is kept of a decoded `bimg::ImageContainer`. */
  datatype Image = Image(width: nat, height: nat)

  /** `texture_s`. */
  datatype Texture = Texture(info: TexInfo, image: Image)

  /** `m_ncTextures` and `m_cTextureNames`. */
  datatype Registry = Registry(textures: seq<Texture>, names: map<string, nat>)

  const Empty := Registry([], map[])

  /** What the registry keeps true: texture `i` has id `i`; every name maps
      to a texture with that name, and to the newest one; every texture's
      name is in the table. */
  predicate Valid(r: Registry)
  {
    && (forall i :: 0 <= i < |r.textures| ==> r.textures[i].info.id == i)
    && (forall i :: 0 <= i < |r.textures| ==> r.textures[i].info.name in r.names)
    && (forall n :: n in r.names ==> r.names[n] < |r.textures| && r.textures[r.names[n]].info.name == n)
    && (forall n, i :: n in r.names && r.names[n] < i < |r.textures| ==> r.textures[i].info.name != n)
  }

  lemma EmptyIsValid()
    ensures Valid(Empty)
  {
  }

  /** `AddAsset`: read the asset, decode it, then register it under its path
      with the next id. A failed read or decode registers nothing. */
  datatype Added = Added(ok: bool, registry: Registry)

  function AddAsset(r: Registry, path: string, a: Assets.Locations, read: string -> Option<Assets.Bytes>,
                    decode: Assets.Bytes -> Option<Image>): (res: Added)
    requires Valid(r)
    ensures Valid(res.registry)
    ensures var got := Assets.ReadToBuffer(a, path, read);
      && (res.ok <==> got.Ok? && decode(got.value).Some?)
      && (!res.ok ==> res.registry == r)
    ensures res.ok ==>
      && |res.registry.textures| == |r.textures| + 1
      && res.registry.textures[..|r.textures|] == r.textures
      && res.registry.textures[|r.textures|].info == TexInfo(|r.textures|, path, 0, 0, 0.0, 0.0, 0.0, 0.0)
      && res.registry.names == r.names[path := |r.textures|]
    ensures res.ok ==> var got := Assets.ReadToBuffer(a, path, read);
      res.registry.textures[|r.textures|].image == decode(got.value).value
  {
    match Assets.ReadToBuffer(a, path, read)
    case Err(_) => Added(false, r)
    case Ok(data) =>
      match decode(data)
      case None => Added(false, r)
      case Some(img) =>
        var id := |r.textures|;
        var tex := Texture(TexInfo(id, path, 0, 0, 0.0, 0.0, 0.0, 0.0), img);
        Added(true, Registry(r.textures + [tex], r.names[path := id]))
  }

  /** `FindByID`: null exactly when the id is not below the count. */
  function FindByID(r: Registry, id: nat): (t: Option<TexInfo>)
    requires Valid(r)
    ensures t.None? <==> id >= |r.textures|
    ensures t.Some? ==> t.value.id == id && t.value == r.textures[id].info
  {
    if id >= |r.textures| then None else Some(r.textures[id].info)
  }

  /** `FindByName`: the newest texture registered under the name, or null
      when none is. */
  function FindByName(r: Registry, name: string): (t: Option<TexInfo>)
    requires Valid(r)
    ensures t.None? <==> forall i :: 0 <= i < |r.textures| ==> r.textures[i].info.name != name
    ensures t.Some? ==> t.value.name == name && t.value.id < |r.textures|
    ensures t.Some? ==> t.value == r.textures[t.value.id].info
    ensures t.Some? ==> forall i :: t.value.id < i < |r.textures| ==> r.textures[i].info.name != name
  {
    if name in r.names then Some(r.textures[r.names[name]].info) else None
  }

  /** After a successful add, the name finds the new texture even when the
      path was added before; the older texture is still found by its id. */
  lemma AddThenFind(r: Registry, path: string, a: Assets.Locations, read: string -> Option<Assets.Bytes>,
                    decode: Assets.Bytes -> Option<Image>)
    requires Valid(r)
    requires AddAsset(r, path, a, read, decode).ok
    ensures var r' := AddAsset(r, path, a, read, decode).registry;
      && FindByName(r', path) == FindByID(r', |r.textures|)
      && FindByName(r', path).Some? && FindByName(r', path).value.id == |r.textures|
      && forall id :: 0 <= id < |r.textures| ==> FindByID(r', id) == FindByID(r, id)
  {
    var r' := AddAsset(r, path, a, read, decode).registry;
    assert r'.textures[|r.textures|].info.name == path;
    forall id | 0 <= id < |r.textures|
      ensures FindByID(r', id) == FindByID(r, id)
    {
      assert r'.textures[id] == r'.textures[..|r.textures|][id];
    }
  }

  /** `stbrp_rect`: the packer reads the id and size and writes a position. */
  datatype Rect = Rect(id: nat, w: nat, h: nat)

  /** `stbrp_pack_rects`: whether every rectangle was placed, and where
      rectangle `k` of the list went. */
  datatype Packer = Packer(fits: seq<Rect> -> bool, at: (seq<Rect>, nat) -> (nat, nat))

  /** The corners of a rectangle placed at (x, y), in atlas units: texel
      coordinates divided by the atlas size. */
  function AtlasCorners(x: nat, y: nat, w: nat, h: nat): (c: (real, real, real, real))
    ensures x + w <= AtlasSize && y + h <= AtlasSize ==>
      0.0 <= c.0 <= c.2 <= 1.0 && 0.0 <= c.1 <= c.3 <= 1.0
    ensures c.0 * AtlasSize as real == x as real && c.1 * AtlasSize as real == y as real
    ensures c.2 * AtlasSize as real == (x + w) as real && c.3 * AtlasSize as real == (y + h) as real
  {
    (x as real / AtlasSize as real, y as real / AtlasSize as real,
     (x + w) as real / AtlasSize as real, (y + h) as real / AtlasSize as real)
  }

  /** The coordinate assignment of `BakeAtlas` as written: the pixel size
      receives the rectangle's position. */
  function PlaceAsWritten(info: TexInfo, rect: Rect, x: nat, y: nat): (i: TexInfo)
    ensures i.pixelW == x && i.pixelH == y
  {
    var c := AtlasCorners(x, y, rect.w, rect.h);
    info.(pixelW := x, pixelH := y, minU := c.0, minV := c.1, maxU := c.2, maxV := c.3)
  }

  /** A 64 by 32 texture placed at (128, 0) is given a pixel size of 128 by
      0, which the wall renderer then divides by. */
  lemma PlaceAsWrittenLosesSize()
    ensures var i := PlaceAsWritten(TexInfo(0, "wall", 0, 0, 0.0, 0.0, 0.0, 0.0), Rect(0, 64, 32), 128, 0);
      i.pixelW != 64 && i.pixelH == 0
  {
  }

  /** The coordinate assignment as intended: the pixel size is the texture's
      size, and the corners span exactly that many texels. */
  function Place(info: TexInfo, rect: Rect, x: nat, y: nat): (i: TexInfo)
    ensures i.pixelW == rect.w && i.pixelH == rect.h
    ensures i.id == info.id && i.name == info.name
    ensures (i.maxU - i.minU) * AtlasSize as real == i.pixelW as real
    ensures (i.maxV - i.minV) * AtlasSize as real == i.pixelH as real
  {
    var c := AtlasCorners(x, y, rect.w, rect.h);
    info.(pixelW := rect.w, pixelH := rect.h, minU := c.0, minV := c.1, maxU := c.2, maxV := c.3)
  }

  /** `BakeAtlas` as written: the rectangle list is never filled, so the
      packer gets an empty list and no texture is placed; the function then
      ends without returning a value (`None`). */
  datatype Baked = Baked(result: Option<bool>, registry: Registry)

  function BakeAtlasAsWritten(r: Registry, packer: Packer): (b: Baked)
    requires Valid(r)
    ensures b.registry == r
    ensures b.result.Some? ==> b.result == Some(false)
  {
    var rects: seq<Rect> := [];
    if !packer.fits(rects) then Baked(Some(false), r)
    else Baked(None, r)
  }

  /** Whatever the packer does, baking as written leaves every texture where
      it was, so no texture ever gets atlas coordinates. */
  lemma BakeAsWrittenPlacesNothing(r: Registry, packer: Packer, id: nat)
    requires Valid(r) && id < |r.textures| && r.textures[id].info.maxU == 0.0
    ensures FindByID(BakeAtlasAsWritten(r, packer).registry, id).value.maxU == 0.0
  {
  }

  /** When the packer accepts the empty list, as a packer does, baking as
      written reaches the end of the function and returns no value. */
  lemma BakeAsWrittenReturnsNothing(r: Registry, packer: Packer)
    requires Valid(r) && packer.fits([])
    ensures BakeAtlasAsWritten(r, packer).result.None?
  {
  }

  /** The rectangles `BakeAtlas` evidently means to pack: one per texture,
      with its id and size. */
  function Rects(r: Registry): (rects: seq<Rect>)
    ensures |rects| == |r.textures|
    ensures forall k :: 0 <= k < |rects| ==>
      rects[k] == Rect(r.textures[k].info.id, r.textures[k].image.width, r.textures[k].image.height)
  {
    seq(|r.textures|, k requires 0 <= k < |r.textures| =>
      Rect(r.textures[k].info.id, r.textures[k].image.width, r.textures[k].image.height))
  }

  /** `BakeAtlas` corrected: every texture is packed; when the packer places
      them all, texture `k` gets the corners of its place and its own size,
      and the result is true. Ids, names and images do not change. */
  function BakeAtlas(r: Registry, packer: Packer): (b: Baked)
    requires Valid(r)
    ensures Valid(b.registry)
    ensures b.registry.names == r.names && |b.registry.textures| == |r.textures|
    ensures b.result == Some(packer.fits(Rects(r)))
    ensures !packer.fits(Rects(r)) ==> b.registry == r
    ensures packer.fits(Rects(r)) ==> forall k :: 0 <= k < |r.textures| ==>
      var tex := r.textures[k];
      var at := packer.at(Rects(r), k);
      && b.registry.textures[k].image == tex.image
      && b.registry.textures[k].info == Place(tex.info, Rect(k, tex.image.width, tex.image.height), at.0, at.1)
  {
    var rects := Rects(r);
    if !packer.fits(rects) then Baked(Some(false), r)
    else
      var placed := seq(|r.textures|, k requires 0 <= k < |r.textures| =>
        r.textures[k].(info := Place(r.textures[k].info, rects[k], packer.at(rects, k).0, packer.at(rects, k).1)));
      forall k | 0 <= k < |placed|
        ensures placed[k].info.id == k && placed[k].info.name == r.textures[k].info.name
      {
        var i := Place(r.textures[k].info, rects[k], packer.at(rects, k).0, packer.at(rects, k).1);
        assert placed[k].info == i;
      }
      Baked(Some(true), Registry(placed, r.names))
  }

  /** After a successful bake a texture's span in the atlas, scaled by the
      atlas size, is its width and height in texels. */
  lemma BakedSpan(r: Registry, packer: Packer, k: nat)
    requires Valid(r) && k < |r.textures| && packer.fits(Rects(r))
    ensures var i := BakeAtlas(r, packer).registry.textures[k].info;
      && i.pixelW == r.textures[k].image.width && i.pixelH == r.textures[k].image.height
      && (i.maxU - i.minU) * AtlasSize as real == i.pixelW as real
      && (i.maxV - i.minV) * AtlasSize as real == i.pixelH as real
  {
  }

  /** After a successful bake each texture's atlas span is its size in
      texels, and a texture placed inside the canvas has corners in [0, 1]. */
  lemma BakedCornersInUnitSquare(r: Registry, packer: Packer, k: nat)
    requires Valid(r) && k < |r.textures| && packer.fits(Rects(r))
    requires packer.at(Rects(r), k).0 + r.textures[k].image.width <= AtlasSize
    requires packer.at(Rects(r), k).1 + r.textures[k].image.height <= AtlasSize
    ensures var i := BakeAtlas(r, packer).registry.textures[k].info;
      && 0.0 <= i.minU <= i.maxU <= 1.0 && 0.0 <= i.minV <= i.maxV <= 1.0
      && i.pixelW == r.textures[k].image.width && i.pixelH == r.textures[k].image.height
  {
  }
}

=== FILE: xoshiro.dfy ===
/** The xoshiro256++ 1.0 generator of rock3d/random.h: a 256-bit state of four
    64-bit words, seeded from two 32-bit seeds through SplitMix64. All
    arithmetic is on `bv64`, so additions and multiplications wrap modulo 2^64
    exactly as `uint64_t` does. */
module Xoshiro {
  import opened Bits

  /** The generator state `m_nqwState`. */
  datatype State = State(s0: bv64, s1: bv64, s2: bv64, s3: bv64)

  const Zero := State(0, 0, 0, 0)

  /** SplitMix64 finaliser: add the golden gamma, then two xor-shift-multiply
      rounds and a final xor-shift. */
  function SplitMix64(x: bv64): bv64
  {
    var z := x + 0x9e37_79b9_7f4a_7c15;
    var z := (z ^ (z >> 30)) * 0xbf58_476d_1ce4_e5b9;
    var z := (z ^ (z >> 27)) * 0x94d0_49bb_1331_11eb;
    z ^ (z >> 31)
  }

  /** Known answer: the first SplitMix64 output for seed 0 is the value the
      published SplitMix64 algorithm gives. */
  lemma SplitMix64OfZero()
    ensures SplitMix64(0) == 0xe220_a839_7b1d_cdaf
  {
  }

  /** `uint64_t(lo) | (uint64_t(hi) << 32)`: `lo` becomes the low half of the
      word and `hi` the high half. */
  function Pack(lo: bv32, hi: bv32): (w: bv64)
    ensures w & 0xFFFF_FFFF == lo as bv64
    ensures w >> 32 == hi as bv64
  {
    PackLow(lo as bv64, hi as bv64);
    PackHigh(lo as bv64, hi as bv64);
    (lo as bv64) | ((hi as bv64) << 32)
  }

  lemma PackLow(lo: bv64, hi: bv64)
    requires lo <= 0xFFFF_FFFF
    ensures (lo | (hi << 32)) & 0xFFFF_FFFF == lo
  {
  }

  lemma PackHigh(lo: bv64, hi: bv64)
    requires lo <= 0xFFFF_FFFF && hi <= 0xFFFF_FFFF
    ensures (lo | (hi << 32)) >> 32 == hi
  {
  }

  /** Packing loses nothing: different halves give different words. */
  lemma PackInjective(a0: bv32, a1: bv32, b0: bv32, b1: bv32)
    ensures Pack(a0, a1) == Pack(b0, b1) <==> a0 == b0 && a1 == b1
  {
    if Pack(a0, a1) == Pack(b0, b1) {
      assert a0 as bv64 == b0 as bv64;
      assert a1 as bv64 == b1 as bv64;
    }
  }

  /** The constructor `Xoshiro256pp(seed0, seed1)`: word 0 holds seed0 in its
      low half and seed1 in its high half; words 1 to 3 are successive
      SplitMix64 images of the word before. */
  function Seed(seed0: bv32, seed1: bv32): (st: State)
    ensures st.s0 & 0xFFFF_FFFF == seed0 as bv64
    ensures st.s0 >> 32 == seed1 as bv64
    ensures st.s1 == SplitMix64(st.s0)
    ensures st.s2 == SplitMix64(st.s1)
    ensures st.s3 == SplitMix64(st.s2)
  {
    var w0 := Pack(seed0, seed1);
    var w1 := SplitMix64(w0);
    var w2 := SplitMix64(w1);
    State(w0, w1, w2, SplitMix64(w2))
  }

  /** Different seed pairs give different generator states. */
  lemma SeedInjective(a0: bv32, a1: bv32, b0: bv32, b1: bv32)
    ensures Seed(a0, a1) == Seed(b0, b1) <==> a0 == b0 && a1 == b1
  {
    PackInjective(a0, a1, b0, b1);
  }

  /** The `++` scrambler: the output drawn from a state, computed before the
      state advances, with wrapping additions. */
  function Output(st: State): bv64
  {
    Rotl(st.s0 + st.s3, 23) + st.s0
  }

  /** The linear state transition of `operator()`, in the source's order:
      `t` is taken from word 1 before any word changes. */
  function Advance(st: State): State
  {
    var t := st.s1 << 17;
    var s2 := st.s2 ^ st.s0;
    var s3 := st.s3 ^ st.s1;
    var s1 := st.s1 ^ s2;
    var s0 := st.s0 ^ s3;
    State(s0, s1, s2 ^ t, Rotl(s3, 45))
  }

  /** One call of `operator()`: the value returned and the successor state. */
  datatype Step = Step(output: bv64, next: State)

  function Generate(st: State): Step
  {
    Step(Output(st), Advance(st))
  }

  /** The all-zero state is a fixed point that outputs zero forever, which is
      why the state must be seeded so that it is not everywhere zero. */
  lemma ZeroStateIsStuck()
    ensures Generate(Zero) == Step(0, Zero)
  {
    RotlZero(23);
    RotlZero(45);
  }

  lemma ShiftXorZero(b: bv64)
    ensures b ^ (b << 17) == 0 ==> b == 0
  {
  }

  /** Only the all-zero state advances to the all-zero state. */
  lemma AdvanceToZero(st: State)
    requires Advance(st) == Zero
    ensures st == Zero
  {
    RotlInverse(st.s3 ^ st.s1, 45);
    RotlZero(19);
    assert st.s3 ^ st.s1 == 0;
    assert st.s0 == 0;
    assert st.s1 ^ st.s2 == 0;
    ShiftXorZero(st.s1);
  }

  /** Any other state never reaches the all-zero state. */
  lemma NonZeroStaysNonZero(st: State)
    requires st != Zero
    ensures Generate(st).next != Zero
  {
    if Advance(st) == Zero {
      AdvanceToZero(st);
    }
  }

  /** Being all-zero is invariant in both directions: a state is zero exactly
      when its successor is. */
  lemma ZeroIffSuccessorZero(st: State)
    ensures st == Zero <==> Generate(st).next == Zero
  {
    if st == Zero {
      ZeroStateIsStuck();
    } else {
      NonZeroStaysNonZero(st);
    }
  }

  /** Known answer for seeds (1, 2): the state and the first two outputs, as
      the published xoshiro256++ and SplitMix64 algorithms give them. */
  lemma SeedKnownAnswer()
    ensures Seed(1, 2) == State(0x2_0000_0001, 0xc485_8308_e594_9c49,
                                0x34e4_55ca_854b_4973, 0x95d9_76f8_d2a9_2c31)
  {
  }

  lemma GenerateKnownAnswer()
    ensures
      var first := Generate(State(0x2_0000_0001, 0xc485_8308_e594_9c49,
                                  0x34e4_55ca_854b_4973, 0x95d9_76f8_d2a9_2c31));
      first == Step(0x7d69_5498_194a_ecbc,
                    State(0x515c_f5f2_373d_b079, 0xf061_d6c0_60df_d53b,
                          0x32f5_9ee1_bdd9_4972, 0xb60f_0a2b_9ebe_06e7))
      && Generate(first.next).output == 0x6047_f3cd_e741_6679
  {
  }

  /** `min()` and `max()`: the full range of `uint64_t`. */
  const Min: bv64 := 0
  const Max: bv64 := 0xFFFF_FFFF_FFFF_FFFF

  /** The declared range is all of `uint64_t`: min() is 0 and max() is
      2^64 - 1. That every output lies in it is then a fact of its type. */
  lemma OutputInRange(st: State)
    ensures Min <= Generate(st).output <= Max
    ensures Min as int == 0 && Max as int == 0x1_0000_0000_0000_0000 - 1
  {
  }
}
